=== FILE: README.md ===
# Normative scoring of "Comprendre normes", in Dafny

The application collects a child's raw scores on a fixed set of cognitive
tasks and compares them with the reference sheet of the child's age group.
For every task it derives a z-score and a percentile. It adds four derived
"interference" scores, assigns each task to a category, colours the
percentile by band, and groups the scored tasks for the chart picker.

This project models that scoring pipeline of `streamlit_app.py` as pure
functions over immutable data, and proves what each step guarantees.

| module | file | what it models |
|---|---|---|
| `Wrappers` | `wrappers.dfy` | `Option`, standing for pandas' missing value (NaN) |
| `Seqs` | `seqs.dfy` | order-preserving selection (`Filter`, `IsSubseq`), the shape of every row mask, `dropna` and `drop_duplicates` |
| `Tables` | `tables.dfy` | reference rows (`Norm`), entered scores (`Entry`), the `dropna` on the reference sheet |
| `Collection` | `collection.dfy` | the entry form (`Form`, seven sections of task pairs) and the collection loop |
| `Interference` | `interference.dfy` | the four interference scores and the non-zero filter |
| `Scoring` | `scoring.dfy` | the left merge, the z-score, the percentile, `dropna` and `drop_duplicates` |
| `Categories` | `categories.dfy` | `categories_mapping`, `assign_category`, the chart-picker grouping |
| `Bands` | `bands.dfy` | the five percentile bands, on screen and in the spreadsheet |
| `Pipeline` | `pipeline.dfy` | the whole pass, from the sheet and the typed numbers to the report |

Modelling choices:

- **Numbers.** Scores, means and standard deviations are `real`, so the
  arithmetic is exact.
- **The normal distribution function.** `norm.cdf` is a parameter
  `cdf: real -> real`. Only its limits at ±inf are used: `Scoring.Percentile`
  gives 100 and 0 there.
- **Division by a zero standard deviation** is modelled as the float
  division behaves, once at least one score was collected.
  - A score above or below the mean gives +inf or -inf (`ZValue.PosInf`, `ZValue.NegInf`).
  - A score equal to the mean gives NaN.
  - `dropna` removes only the NaN case, so an infinite z-score stays in the table.
  - The percentile of +inf is 100 and that of -inf is 0.
  - When no score was collected, `scores_df` is built from an empty list
    and its score column has no numeric type. The division then runs cell
    by cell, and NaN / 0.0 raises ZeroDivisionError for a reference row
    with standard deviation 0. `Pipeline.Run` models that outcome.
- **Typed numbers.** The form's input is a map from task name to the
  number typed. A task absent from the map had a blank field.

Behaviour of the code that the model keeps:

- **Zero standard deviation.** A task whose standard deviation is 0 stays
  in the results when its score differs from the mean, with z = ±inf and
  percentile 100 or 0 (`Scoring.ZeroSdScored`). Only a score equal to the
  mean is dropped, because its z-score is NaN.
- **Reference rows.** The code does not check that task names are unique
  or that standard deviations are positive, so the model allows repeated
  tasks and any standard deviation. The merge then yields several rows
  per task, and `drop_duplicates` keeps the first.
- **Time tasks.** The list `time_variables` (streamlit_app.py:191-198) is
  never read. Every task, time tasks included, gets the same z-score
  formula.

## Model

| member | source | states |
|---|---|---|
| Tables.CleanNorms | streamlit_app.py:70-74 | the i-th clean row is the i-th complete row of the sheet, so only complete rows survive, in sheet order; nothing is lost when every row is complete |
| Tables.Lookup | streamlit_app.py:185 | the merge finds a score for a task iff the score table names it, and the score found is an entry of the table |
| Tables.LookupDistinct | streamlit_app.py:185 | in a score table without repeated tasks, each entry is the one found for its task |
| Collection.PairTasks | streamlit_app.py:112-114 | each pair is visited left task first, then right task |
| Collection.CollectScores | streamlit_app.py:112-147 | a score is collected exactly for the visited tasks that have a reference row and were filled in, with the typed value, in visiting order |
| Collection.CollectEntered | streamlit_app.py:112-147 | `inhibition_scores` holds exactly the typed numbers of visited tasks with a reference row |
| Collection.CollectMissing | streamlit_app.py:112-147 | a visited task is listed as without norms iff the sheet has no row for it, in visiting order |
| Collection.CollectTasks | streamlit_app.py:112-147 | the three results of the collection loop together: reference-only collection, the missing-norms list, the entered numbers |
| Collection.CollectedDistinct | streamlit_app.py:112-147 | a form without repeated tasks yields a score table without repeated tasks |
| Collection.FormVisitOrder | streamlit_app.py:77-105 | flattening the seven sections of the form gives the visiting order |
| Collection.FormTasksDistinct | streamlit_app.py:77-105 | the form lists 26 tasks, none twice |
| Interference.Interferences | streamlit_app.py:150-167 | each of the four interference scores is incongruent minus congruent, a missing operand counting as 0 |
| Interference.ExampleInterference | streamlit_app.py:150-154 | congruent 500 and incongruent 620 give an interference of 120 |
| Interference.BothMissingGivesZero | streamlit_app.py:150-180 | with both operands missing the interference is 0 and is not appended |
| Interference.CongruentMissing | streamlit_app.py:150-154 | with only the incongruent number entered, the interference is that number |
| Interference.NonZero | streamlit_app.py:174-176 | `filtered_interferences` keeps exactly the non-zero entries, in order |
| Interference.WithInterferences | streamlit_app.py:178-180 | the entered scores stay in front, unchanged; an interference entry is appended iff it is non-zero, in derivation order |
| Interference.DerivedNamesDistinct | streamlit_app.py:150-167 | the four derived task names differ |
| Scoring.ZScore | streamlit_app.py:186-188 | for a non-zero standard deviation the z-score satisfies score = mean + z * sd; for sd = 0 it is +inf, -inf or NaN as the score is above, below or at the mean; no score gives NaN |
| Scoring.Percentile | streamlit_app.py:200 | the percentile is missing exactly for a NaN z-score; it is 100 at +inf and 0 at -inf |
| Scoring.Merge | streamlit_app.py:185 | the left merge pairs every reference row with every score of its task, and with a missing score when none was entered; no other row appears |
| Scoring.MergeDistinct | streamlit_app.py:185 | with at most one score per task, the merge has exactly one row per reference row, in sheet order |
| Scoring.FirstWith | streamlit_app.py:203 | the first row of a task is missing iff no row has that task, and no earlier row has it |
| Scoring.DropDuplicates | streamlit_app.py:203 | no task twice, the same set of tasks, every kept row is the first row of its task, order preserved |
| Scoring.Filled | streamlit_app.py:185-202 | the rows that reach duplicate removal have a score and a non-NaN z-score, and their z-score and percentile are computed from their own score and reference row |
| Scoring.FilledComplete | streamlit_app.py:185-202 | a reference row with an entered score and a non-NaN z-score reaches duplicate removal |
| Scoring.FilledFilterRedundant | streamlit_app.py:188-202 | the filter on the score column after `dropna` on the z-score removes nothing |
| Scoring.ScoreTable | streamlit_app.py:185-203 | every scored row has a reference row and an entered score, its z-score and percentile are those of its own score and reference row, z = (score - mean) / sd for every task including the time tasks, percentile = cdf(z) * 100, at most one row per task, and every task with a score and a usable z-score is scored |
| Scoring.ScoreTableOrder | streamlit_app.py:185-203 | for every score table, the scored rows follow the reference sheet order |
| Scoring.RowsFollowSheet | streamlit_app.py:185-203 | any selection of merged rows with at most one row per task follows the reference sheet order |
| Scoring.ScoreTableFirstOccurrence | streamlit_app.py:185-203 | with at most one score per task and no zero standard deviation, each kept row is the first reference row of its task |
| Scoring.ScoreAtMean | streamlit_app.py:186-200 | a score equal to the mean gives z = 0, and percentile 50 when cdf(0) = 1/2 |
| Scoring.ExampleZScore | streamlit_app.py:186 | mean 50, standard deviation 10 and score 65 give z = 1.5 |
| Scoring.ZeroSdScored | streamlit_app.py:186-188 | a task with standard deviation 0 and a score off the mean is kept, with z = ±inf and percentile 100 or 0 |
| Categories.CategoryIn | streamlit_app.py:444-448 | the category is the first in mapping order whose list holds the task, and "Autre" when no list holds it |
| Categories.MappingDisjoint | streamlit_app.py:212-235 | the four category lists share no task, and no category is called "Autre" |
| Categories.AssignedIsUnique | streamlit_app.py:444-448 | in a mapping with disjoint lists, a listed task gets the one category that lists it |
| Categories.AssignCategoryExact | streamlit_app.py:444-448 | `assign_category` gives the category listing the task, and "Autre" exactly for unlisted tasks |
| Categories.GroupOf | streamlit_app.py:548 | a category's group holds exactly its calculated tasks, in the category's order |
| Categories.TasksByCategory | streamlit_app.py:546-550 | one group per category with a calculated task, in mapping order; categories without one are omitted |
| Categories.PickerPlacesTask | streamlit_app.py:545-550 | a calculated task lies in a group iff the group is that of its category, and a listed task always shows up |
| Bands.ScreenColour | streamlit_app.py:502-516 | the on-screen colour marks the range the percentile lies in; NaN and values above 100 get none |
| Bands.SheetFill | streamlit_app.py:611-625 | the spreadsheet fill marks the range the percentile lies in; NaN and values above 100 get none |
| Bands.ClassifiersAgree | streamlit_app.py:611-625 | the spreadsheet classifier puts every cell in the same band as the on-screen one (lines 502-516) |
| Bands.BandMonotone | streamlit_app.py:502-516 | a higher percentile never lands in a lower band |
| Pipeline.Run | streamlit_app.py:107-188 | the pass fails exactly when no form task with a reference row was filled in and some reference row has standard deviation 0; otherwise it yields the report of `Pipeline.Evaluate` |
| Pipeline.NoScores | streamlit_app.py:112-182 | `scores_df` is empty exactly when no form task with a reference row was filled in |
| Pipeline.Evaluate | streamlit_app.py:107-203 | missing norms are exactly the form tasks without a reference row; every row has a usable z-score and a percentile; every score is a typed number or a non-zero interference; one row per task; every typed number with a reference row and a usable z-score is scored |
| Pipeline.CollectedEntered | streamlit_app.py:112-147 | the collection loop keeps the typed numbers of the form tasks that have a reference row |
| Pipeline.ScoredRowOrigin | streamlit_app.py:178-182 | every entry of `scores_df` is a typed number of a form task or a non-zero interference score |
| Pipeline.TypedScoreKept | streamlit_app.py:112-182 | a typed number for a form task with a reference row reaches `scores_df` |
| Pipeline.DerivedScoreKept | streamlit_app.py:150-182 | a non-zero interference score reaches `scores_df` |
| Pipeline.DerivedTaskScored | streamlit_app.py:150-203 | a derived task with a reference row, a non-zero interference score and a usable z-score is scored |
| Pipeline.DerivedNotInForm | streamlit_app.py:77-167 | no derived task is a task of the form |
| Pipeline.ScoresDistinct | streamlit_app.py:150-182 | `scores_df` has at most one entry per task |
| Pipeline.ReportOrder | streamlit_app.py:185-203 | the rows of the report follow the reference sheet order |
| Pipeline.ReportFirstOccurrence | streamlit_app.py:185-203 | with no zero standard deviation, each row of the report is the first reference row of its task |
| Pipeline.CalculatedTasks | streamlit_app.py:545 | `calculated_tasks` holds exactly the tasks of rows with a z-score |
| Pipeline.ReportAllCalculated | streamlit_app.py:545 | every task of the report is offered to the chart picker, in row order |
| Pipeline.ReportTasksKnown | streamlit_app.py:107-203 | every task of the report is a form task or a derived task |
| Pipeline.KnownTasksMapped | streamlit_app.py:212-235 | every form task and every derived task is listed by a category |
| Pipeline.PlacedTask | streamlit_app.py:545-550 | a listed calculated task has a category other than "Autre" and appears in that category's group |
| Pipeline.ReportCategories | streamlit_app.py:545-550 | no row of the report falls in "Autre", and the picker shows each row's task in the group of its category |

## Left out

- Streamlit interface and session state (age group and child identifier, headings, warnings, buttons, `st.session_state`): presentation only. The report is the value the confirm button would store.
- Loading the workbook (`load_age_data`) and its error path: file I/O. The reference sheet is a parameter of `Pipeline.Evaluate`: the complete rows that `Tables.CleanNorms` leaves.
- Parsing the typed text with `float(...)`: float parsing. The input is a map of numbers, and a blank field is an absent key.
- Text that is not a number, typed for one of the eight congruent or incongruent inhibition tasks: it is stored among the entered numbers and the interference subtraction (streamlit_app.py:150-167) raises TypeError. Only numeric input is modelled. Invalid text for any other task is stored but never read again: the task gets no score and is not reported missing, which is what the model gives for an absent key.
- Pipeline.Evaluate: gives the report of a pass that completes. It does not say that the pass raises ZeroDivisionError when no score was collected and a reference row has standard deviation 0; `Pipeline.Run` states when that happens.
- Scoring.ScoreTable: for an empty score table it returns no rows even when a reference row has standard deviation 0, where the source raises; `Pipeline.Run` records that failure.
- `norm.cdf`: a float numeric routine, kept as an uninterpreted parameter. Its limits at ±inf (1 and 0) are written into `Scoring.Percentile`.
- IEEE floats: rounding, overflow and the sign of a zero standard deviation (-0.0) are not modelled, because reals are exact.
- `format_floats`, column widths and the category text colours of the results table (`color_task_text_by_category`): display formatting.
- Charting (`plot_grouped_scores`) and the display-label table: rendering only.
- Writing the spreadsheet, the image and the zip bundle: file I/O. Only the band choice of each percentile cell is modelled. The target row `ws[idx + 2]` follows the pandas index, which `dropna` leaves with gaps; that placement is not modelled.
- The descriptive percentile columns of the sheet (minimum to maximum) are carried in `Norm.stats` and nothing else is done with them.
- Scoring.ScoreTableFirstOccurrence: holds only when no standard deviation is 0. A reference row with sd = 0 and a score equal to its mean is dropped, and a later row of the same task can then be kept.
- Pipeline.ReportFirstOccurrence: same condition as `Scoring.ScoreTableFirstOccurrence`.
- Bands.ClassifiersAgree: states agreement of the band, not of the colour. The two palettes differ: the top band is rgb(174, 222, 182) on screen and AEDFB6, that is rgb(174, 223, 182), in the spreadsheet.

=== FILE: bands.dfy ===
/** Percentile bands: the results table colours a percentile cell by five
    ranges, once on screen and once in the spreadsheet export, each with
    its own palette. */
module Bands {
  import opened Wrappers

  /** The five ranges, from the lowest up, and the absence of a band. */
  datatype Band = VeryLow | Low | Average | High | VeryHigh | NoBand

  /** An RGB colour. */
  datatype Rgb = Rgb(red: int, green: int, blue: int)

  /** The ranges by their bounds: (-inf, 3], (3, 15], (15, 85], (85, 97],
      (97, 100]; above 100 there is no band. */
  ghost predicate InBand(p: real, b: Band)
  {
    match b
    case VeryLow => p <= 3.0
    case Low => 3.0 < p <= 15.0
    case Average => 15.0 < p <= 85.0
    case High => 85.0 < p <= 97.0
    case VeryHigh => 97.0 < p <= 100.0
    case NoBand => p > 100.0
  }

  /** Position of a band, lowest first; no band sits above them all. */
  function Rank(b: Band): nat
  {
    match b
    case VeryLow => 0
    case Low => 1
    case Average => 2
    case High => 3
    case VeryHigh => 4
    case NoBand => 5
  }

  /** `color_percentiles_by_range`: the background of a percentile cell on
      screen (alpha 0.5, black text), or none for a NaN cell or a value
      above 100. */
  function ScreenColour(p: Option<real>): (c: Option<Rgb>)
    ensures c.None? <==> p.None? || p.value > 100.0
    ensures p.Some? ==> InBand(p.value, ScreenBand(c))
  {
    match p
    case None => None
    case Some(v) =>
      if v <= 3.0 then Some(Rgb(212, 70, 70))
      else if v <= 15.0 then Some(Rgb(245, 167, 47))
      else if v <= 85.0 then Some(Rgb(96, 205, 114))
      else if v <= 97.0 then Some(Rgb(141, 223, 155))
      else if v <= 100.0 then Some(Rgb(174, 222, 182))
      else None
  }

  /** The fill of a percentile cell in the spreadsheet export, or none. */
  function SheetFill(p: Option<real>): (c: Option<Rgb>)
    ensures c.None? <==> p.None? || p.value > 100.0
    ensures p.Some? ==> InBand(p.value, SheetBand(c))
  {
    match p
    case None => None
    case Some(v) =>
      if v <= 3.0 then Some(Rgb(0xD4, 0x46, 0x46))
      else if v <= 15.0 then Some(Rgb(0xF5, 0xA7, 0x2F))
      else if v <= 85.0 then Some(Rgb(0x60, 0xCD, 0x72))
      else if v <= 97.0 then Some(Rgb(0x8D, 0xDF, 0x9B))
      else if v <= 100.0 then Some(Rgb(0xAE, 0xDF, 0xB6))
      else None
  }

  /** The band an on-screen colour stands for. */
  function ScreenBand(c: Option<Rgb>): Band
  {
    match c
    case None => NoBand
    case Some(rgb) =>
      if rgb == Rgb(212, 70, 70) then VeryLow
      else if rgb == Rgb(245, 167, 47) then Low
      else if rgb == Rgb(96, 205, 114) then Average
      else if rgb == Rgb(141, 223, 155) then High
      else if rgb == Rgb(174, 222, 182) then VeryHigh
      else NoBand
  }

  /** The band a spreadsheet fill stands for. */
  function SheetBand(c: Option<Rgb>): Band
  {
    match c
    case None => NoBand
    case Some(rgb) =>
      if rgb == Rgb(0xD4, 0x46, 0x46) then VeryLow
      else if rgb == Rgb(0xF5, 0xA7, 0x2F) then Low
      else if rgb == Rgb(0x60, 0xCD, 0x72) then Average
      else if rgb == Rgb(0x8D, 0xDF, 0x9B) then High
      else if rgb == Rgb(0xAE, 0xDF, 0xB6) then VeryHigh
      else NoBand
  }

  /** The two classifiers put every cell, numeric or NaN, in the same band. */
  lemma ClassifiersAgree(p: Option<real>)
    ensures ScreenBand(ScreenColour(p)) == SheetBand(SheetFill(p))
  {
  }

  /** A higher percentile never lands in a lower band. */
  lemma BandMonotone(p: real, q: real)
    requires p <= q
    ensures Rank(ScreenBand(ScreenColour(Some(p)))) <= Rank(ScreenBand(ScreenColour(Some(q))))
  {
  }
}

=== FILE: categories.dfy ===
/** Categories of the results page: every task belongs to the first category
    whose list names it, or to "Autre"; the chart picker groups the
    calculated tasks by category. */
module Categories {
  import opened Seqs

  /** A category name with its tasks in display order. */
  datatype Category = Category(name: string, tasks: seq<string>)

  /** The category of a task that no list names. */
  const Other: string := "Autre"

  /** The mapping of the results page, in order (streamlit_app.py:212-235). */
  const Mapping: seq<Category> := [
    Category("Langage", [
      "Discrimination Phonologique", "Décision Lexicale Auditive",
      "Mots Outils", "Stock Lexical", "Compréhension Syntaxique", "Mots Outils - BOEHM"]),
    Category("Mémoire de Travail", [
      "Mémoire de travail verbale endroit empan", "Mémoire de travail verbale endroit brut",
      "Mémoire de travail verbale envers empan", "Mémoire de travail verbale envers brut",
      "Mémoire de travail non verbale endroit empan", "Mémoire de travail non verbale endroit brut",
      "Mémoire de travail non verbale envers empan", "Mémoire de travail non verbale envers brut"]),
    Category("Mise à jour", [
      "Mise à jour verbale empan", "Mise à jour verbale score",
      "Mise à jour non verbale empan", "Mise à jour non verbale score"]),
    Category("Inhibition", [
      "Inhibition verbale congruent score", "Inhibition verbale incongruent score",
      "Inhibition verbale congruent temps", "Inhibition verbale incongruent temps",
      "Inhibition verbale interférence score", "Inhibition verbale interférence temps",
      "Inhibition non verbale congruent score", "Inhibition non verbale incongruent score",
      "Inhibition non verbale congruent temps", "Inhibition non verbale incongruent temps",
      "Inhibition non verbale interférence score", "Inhibition non verbale interférence temps"])
  ]

  /** Some category of `mapping` lists `task`. */
  ghost predicate Mapped(mapping: seq<Category>, task: string)
  {
    exists k :: 0 <= k < |mapping| && task in mapping[k].tasks
  }

  /** The first category of `mapping` whose list holds `task`, else `Other`. */
  function CategoryIn(mapping: seq<Category>, task: string): (c: string)
    ensures Mapped(mapping, task) ==>
              exists k :: 0 <= k < |mapping| && task in mapping[k].tasks && c == mapping[k].name
                          && forall j :: 0 <= j < k ==> task !in mapping[j].tasks
    ensures !Mapped(mapping, task) ==> c == Other
  {
    if |mapping| == 0 then Other
    else if task in mapping[0].tasks then mapping[0].name
    else
      var c := CategoryIn(mapping[1..], task);
      assert Mapped(mapping, task) ==> Mapped(mapping[1..], task) by {
        if Mapped(mapping, task) {
          var k :| 0 <= k < |mapping| && task in mapping[k].tasks;
          assert mapping[1..][k - 1] == mapping[k];
        }
      }
      assert Mapped(mapping[1..], task) ==> Mapped(mapping, task) by {
        if Mapped(mapping[1..], task) {
          var k :| 0 <= k < |mapping[1..]| && task in mapping[1..][k].tasks;
          assert mapping[k + 1] == mapping[1..][k];
        }
      }
      ShiftFirst(mapping, task, c);
      c
  }

  /** A first category in the tail of `mapping` is a first category of
      `mapping` when the head does not list the task. */
  lemma ShiftFirst(mapping: seq<Category>, task: string, c: string)
    requires |mapping| > 0 && task !in mapping[0].tasks
    requires Mapped(mapping[1..], task) ==>
               exists k :: 0 <= k < |mapping[1..]| && task in mapping[1..][k].tasks && c == mapping[1..][k].name
                           && forall j :: 0 <= j < k ==> task !in mapping[1..][j].tasks
    ensures Mapped(mapping[1..], task) ==>
              exists k :: 0 <= k < |mapping| && task in mapping[k].tasks && c == mapping[k].name
                          && forall j :: 0 <= j < k ==> task !in mapping[j].tasks
  {
    if Mapped(mapping[1..], task) {
      var k :| 0 <= k < |mapping[1..]| && task in mapping[1..][k].tasks && c == mapping[1..][k].name
               && forall j :: 0 <= j < k ==> task !in mapping[1..][j].tasks;
      assert mapping[k + 1] == mapping[1..][k];
      forall j | 0 <= j < k + 1 ensures task !in mapping[j].tasks {
        if j > 0 {
          assert mapping[j] == mapping[1..][j - 1];
        }
      }
    }
  }

  /** `assign_category`: the category of a task on the results page. */
  function AssignCategory(task: string): string
  {
    CategoryIn(Mapping, task)
  }

  /** No task is listed by two categories. */
  ghost predicate Disjoint(mapping: seq<Category>)
  {
    forall i, j, t :: 0 <= i < j < |mapping| && t in mapping[i].tasks ==> t !in mapping[j].tasks
  }

  // One lemma per pair of categories, so that each proof unfolds only two
  // of the literal lists. They exist only for MappingDisjoint.
  lemma Disjoint01() ensures forall t :: t in Mapping[0].tasks ==> t !in Mapping[1].tasks {}
  lemma Disjoint02() ensures forall t :: t in Mapping[0].tasks ==> t !in Mapping[2].tasks {}
  lemma Disjoint03() ensures forall t :: t in Mapping[0].tasks ==> t !in Mapping[3].tasks {}
  lemma Disjoint12() ensures forall t :: t in Mapping[1].tasks ==> t !in Mapping[2].tasks {}
  lemma Disjoint13() ensures forall t :: t in Mapping[1].tasks ==> t !in Mapping[3].tasks {}
  lemma Disjoint23() ensures forall t :: t in Mapping[2].tasks ==> t !in Mapping[3].tasks {}

  /** The four lists of the mapping share no task, and no category is
      called "Autre". */
  lemma MappingDisjoint()
    ensures Disjoint(Mapping)
    ensures forall k :: 0 <= k < |Mapping| ==> Mapping[k].name != Other
  {
    Disjoint01(); Disjoint02(); Disjoint03(); Disjoint12(); Disjoint13(); Disjoint23();
  }

  /** In a disjoint mapping the category of a listed task is the one
      category that lists it, and "Autre" is returned exactly for the tasks
      no category lists. */
  lemma AssignedIsUnique(mapping: seq<Category>, task: string, k: nat)
    requires Disjoint(mapping)
    requires k < |mapping| && task in mapping[k].tasks
    ensures CategoryIn(mapping, task) == mapping[k].name
  {
  }

  lemma AssignCategoryExact(task: string)
    ensures forall k :: 0 <= k < |Mapping| && task in Mapping[k].tasks ==> AssignCategory(task) == Mapping[k].name
    ensures AssignCategory(task) == Other <==> !Mapped(Mapping, task)
  {
    MappingDisjoint();
    forall k | 0 <= k < |Mapping| && task in Mapping[k].tasks
      ensures AssignCategory(task) == Mapping[k].name
    {
      AssignedIsUnique(Mapping, task, k);
    }
  }

  /** The tasks of one category that were calculated, in the category's
      order. */
  function GroupOf(category: Category, calculated: seq<string>): (g: Category)
    ensures g.name == category.name
    ensures forall t :: t in g.tasks <==> t in category.tasks && t in calculated
    ensures IsSubseq(g.tasks, category.tasks)
  {
    var tasks := Filter(category.tasks, (t: string) => t in calculated);
    assert forall t :: t in category.tasks ==> exists i :: 0 <= i < |category.tasks| && category.tasks[i] == t;
    Category(category.name, tasks)
  }

  /** `tasks_by_category`: for every category in mapping order, the
      calculated tasks it lists; a category with none is left out. */
  function TasksByCategory(mapping: seq<Category>, calculated: seq<string>): (groups: seq<Category>)
    ensures forall g :: g in groups ==> |g.tasks| > 0
    ensures forall k :: 0 <= k < |mapping| && |GroupOf(mapping[k], calculated).tasks| > 0 ==>
              GroupOf(mapping[k], calculated) in groups
    ensures forall g :: g in groups ==>
              exists k :: 0 <= k < |mapping| && g == GroupOf(mapping[k], calculated)
    ensures IsSubseq(groups, MapSeq(mapping, (c: Category) => GroupOf(c, calculated)))
  {
    var all := MapSeq(mapping, (c: Category) => GroupOf(c, calculated));
    var groups := Filter(all, (g: Category) => |g.tasks| > 0);
    SubseqElements(groups, all);
    assert forall g :: g in all ==> exists k :: 0 <= k < |mapping| && g == all[k];
    groups
  }

  /** Every calculated task that some category lists shows up in exactly one
      group of the picker: the group of its category. */
  lemma PickerPlacesTask(calculated: seq<string>, task: string)
    requires task in calculated
    ensures var groups := TasksByCategory(Mapping, calculated);
            forall g :: g in groups ==> (task in g.tasks <==> g.name == AssignCategory(task))
    ensures var groups := TasksByCategory(Mapping, calculated);
            Mapped(Mapping, task) ==> exists g :: g in groups && task in g.tasks
  {
    var groups := TasksByCategory(Mapping, calculated);
    MappingDisjoint();
    AssignCategoryExact(task);
    forall g | g in groups ensures task in g.tasks <==> g.name == AssignCategory(task) {
      var k :| 0 <= k < |Mapping| && g == GroupOf(Mapping[k], calculated);
      NamesDistinct();
    }
    if Mapped(Mapping, task) {
      var k :| 0 <= k < |Mapping| && task in Mapping[k].tasks;
      assert GroupOf(Mapping[k], calculated) in groups;
    }
  }

  /** The four category names differ. */
  lemma NamesDistinct()
    ensures forall i, j :: 0 <= i < j < |Mapping| ==> Mapping[i].name != Mapping[j].name
  {
  }
}

=== FILE: collection.dfy ===
/** Score collection: the entry form walks its sections and task pairs in
    order; a task gets an input field only when the age group's reference
    sheet has a row for it, and otherwise is reported as having no norms. */
module Collection {
  import opened Seqs
  import opened Tables

  /** Two tasks shown side by side, left column first. */
  datatype Pair = Pair(left: string, right: string)

  /** A heading of the entry form with its task pairs. */
  datatype Section = Section(heading: string, pairs: seq<Pair>)

  /** The entry form, section by section (streamlit_app.py:77-105). */
  const Form: seq<Section> := [
    Section("Langage", [
      Pair("Discrimination Phonologique", "Décision Lexicale Auditive"),
      Pair("Mots Outils", "Stock Lexical"),
      Pair("Compréhension Syntaxique", "Mots Outils - BOEHM")]),
    Section("Mémoire de Travail Verbale", [
      Pair("Mémoire de travail verbale endroit empan", "Mémoire de travail verbale endroit brut"),
      Pair("Mémoire de travail verbale envers empan", "Mémoire de travail verbale envers brut")]),
    Section("Mémoire de Travail Non Verbale", [
      Pair("Mémoire de travail non verbale endroit empan", "Mémoire de travail non verbale endroit brut"),
      Pair("Mémoire de travail non verbale envers empan", "Mémoire de travail non verbale envers brut")]),
    Section("Mise à jour Verbale", [
      Pair("Mise à jour verbale empan", "Mise à jour verbale score")]),
    Section("Mise à jour Non Verbale", [
      Pair("Mise à jour non verbale empan", "Mise à jour non verbale score")]),
    Section("INHIB verbale", [
      Pair("Inhibition verbale congruent score", "Inhibition verbale incongruent score"),
      Pair("Inhibition verbale congruent temps", "Inhibition verbale incongruent temps")]),
    Section("INHIB non verbale", [
      Pair("Inhibition non verbale congruent score", "Inhibition non verbale incongruent score"),
      Pair("Inhibition non verbale congruent temps", "Inhibition non verbale incongruent temps")])
  ]

  /** The tasks of some pairs in visiting order: left, then right. */
  function PairTasks(pairs: seq<Pair>): (tasks: seq<string>)
    ensures |tasks| == 2 * |pairs|
    ensures forall i :: 0 <= i < |pairs| ==>
              tasks[2 * i] == pairs[i].left && tasks[2 * i + 1] == pairs[i].right
  {
    if |pairs| == 0 then []
    else [pairs[0].left, pairs[0].right] + PairTasks(pairs[1..])
  }

  /** The tasks of a form in visiting order. */
  function FormTasks(form: seq<Section>): seq<string>
  {
    if |form| == 0 then [] else PairTasks(form[0].pairs) + FormTasks(form[1..])
  }

  /** What the collection loop leaves behind: the score table
      (`user_scores`), every number entered by task name
      (`inhibition_scores`), and the tasks without norms (`missing_norms`). */
  datatype Collected = Collected(scores: seq<Entry>, entered: map<string, real>, missing: seq<string>)

  /** The scores of the collection loop (`user_scores`): one entry per
      visited task that has norms and was filled in, in visiting order. */
  function CollectScores(tasks: seq<string>, known: seq<string>, input: map<string, real>): (scores: seq<Entry>)
    // a score is collected only for a visited task that has norms and was filled in
    ensures forall i :: 0 <= i < |scores| ==>
              scores[i].task in tasks && scores[i].task in known && scores[i].task in input
              && scores[i].value == input[scores[i].task]
    // and every such task is collected
    ensures forall t :: t in tasks && t in known && t in input ==> Entry(t, input[t]) in scores
    ensures IsSubseq(EntryTasks(scores), tasks)
  {
    if |tasks| == 0 then []
    else
      var t := tasks[0];
      var rest := CollectScores(tasks[1..], known, input);
      assert forall u :: u in tasks <==> u == t || u in tasks[1..];
      if t in known && t in input then
        var scores := [Entry(t, input[t])] + rest;
        assert EntryTasks(scores)[1..] == EntryTasks(rest);
        scores
      else
        rest
  }

  /** The numbers of the collection loop by task name
      (`inhibition_scores`). */
  function CollectEntered(tasks: seq<string>, known: seq<string>, input: map<string, real>): (entered: map<string, real>)
    ensures forall t :: t in entered <==> t in tasks && t in known && t in input
    ensures forall t :: t in entered ==> entered[t] == input[t]
  {
    if |tasks| == 0 then map[]
    else
      var t := tasks[0];
      var rest := CollectEntered(tasks[1..], known, input);
      assert forall u :: u in tasks <==> u == t || u in tasks[1..];
      if t in known && t in input then map[t := input[t]] + rest else rest
  }

  /** The tasks of the collection loop without norms (`missing_norms`). */
  function CollectMissing(tasks: seq<string>, known: seq<string>): (missing: seq<string>)
    ensures forall t :: t in missing <==> t in tasks && t !in known
    ensures IsSubseq(missing, tasks)
  {
    if |tasks| == 0 then []
    else
      var t := tasks[0];
      var rest := CollectMissing(tasks[1..], known);
      assert forall u :: u in tasks <==> u == t || u in tasks[1..];
      if t in known then rest
      else
        assert ([t] + rest)[1..] == rest;
        [t] + rest
  }

  /** Visits `tasks` in order. `known` is the column "Tâche" of the reference
      sheet and `input` holds the numbers typed into the form, by task name;
      a task absent from `input` had a blank field. */
  function CollectTasks(tasks: seq<string>, known: seq<string>, input: map<string, real>): (c: Collected)
    // a score is collected only for a visited task that has norms and was filled in
    ensures forall i :: 0 <= i < |c.scores| ==>
              c.scores[i].task in tasks && c.scores[i].task in known && c.scores[i].task in input
              && c.scores[i].value == input[c.scores[i].task]
    // and every such task is collected
    ensures forall t :: t in tasks && t in known && t in input ==> Entry(t, input[t]) in c.scores
    // a task is reported missing exactly when the sheet has no row for it
    ensures forall t :: t in c.missing <==> t in tasks && t !in known
    ensures forall t :: t in c.entered <==> t in tasks && t in known && t in input
    ensures forall t :: t in c.entered ==> c.entered[t] == input[t]
    // both lists follow the visiting order
    ensures IsSubseq(EntryTasks(c.scores), tasks)
    ensures IsSubseq(c.missing, tasks)
  {
    Collected(CollectScores(tasks, known, input), CollectEntered(tasks, known, input), CollectMissing(tasks, known))
  }

  /** A score table collected from a form without repeated tasks has no
      repeated tasks either. */
  lemma CollectedDistinct(tasks: seq<string>, known: seq<string>, input: map<string, real>)
    requires Distinct(tasks)
    ensures Distinct(EntryTasks(CollectTasks(tasks, known, input).scores))
  {
    SubseqDistinct(EntryTasks(CollectTasks(tasks, known, input).scores), tasks);
  }

  /** The visiting order of the form, spelled out. */
  const VisitOrder: seq<string> := [
    "Discrimination Phonologique", "Décision Lexicale Auditive",
    "Mots Outils", "Stock Lexical",
    "Compréhension Syntaxique", "Mots Outils - BOEHM",
    "Mémoire de travail verbale endroit empan", "Mémoire de travail verbale endroit brut",
    "Mémoire de travail verbale envers empan", "Mémoire de travail verbale envers brut",
    "Mémoire de travail non verbale endroit empan", "Mémoire de travail non verbale endroit brut",
    "Mémoire de travail non verbale envers empan", "Mémoire de travail non verbale envers brut",
    "Mise à jour verbale empan", "Mise à jour verbale score",
    "Mise à jour non verbale empan", "Mise à jour non verbale score",
    "Inhibition verbale congruent score", "Inhibition verbale incongruent score",
    "Inhibition verbale congruent temps", "Inhibition verbale incongruent temps",
    "Inhibition non verbale congruent score", "Inhibition non verbale incongruent score",
    "Inhibition non verbale congruent temps", "Inhibition non verbale incongruent temps"]

  // The lemmas Section0Tasks to Section6Tasks and Suffix6Tasks to
  // Suffix0Tasks unfold the form one section at a time. Unfolding the
  // whole literal form in one proof is more than the solver can do in
  // reasonable time. They exist only for FormVisitOrder.
  lemma Section0Tasks()
    ensures PairTasks(Form[0].pairs) == VisitOrder[0..6]
  {}

  lemma Section1Tasks()
    ensures PairTasks(Form[1].pairs) == VisitOrder[6..10]
  {}

  lemma Section2Tasks()
    ensures PairTasks(Form[2].pairs) == VisitOrder[10..14]
  {}

  lemma Section3Tasks()
    ensures PairTasks(Form[3].pairs) == VisitOrder[14..16]
  {}

  lemma Section4Tasks()
    ensures PairTasks(Form[4].pairs) == VisitOrder[16..18]
  {}

  lemma Section5Tasks()
    ensures PairTasks(Form[5].pairs) == VisitOrder[18..22]
  {}

  lemma Section6Tasks()
    ensures PairTasks(Form[6].pairs) == VisitOrder[22..26]
  {}

  lemma Suffix6Tasks()
    ensures FormTasks(Form[6..]) == VisitOrder[22..]
  {
    Section6Tasks();
    assert Form[6..][1..] == [];
    assert VisitOrder[22..] == VisitOrder[22..26] + VisitOrder[26..];
  }

  lemma Suffix5Tasks()
    ensures FormTasks(Form[5..]) == VisitOrder[18..]
  {
    Section5Tasks();
    Suffix6Tasks();
    assert Form[5..][1..] == Form[6..];
    assert VisitOrder[18..] == VisitOrder[18..22] + VisitOrder[22..];
  }

  lemma Suffix4Tasks()
    ensures FormTasks(Form[4..]) == VisitOrder[16..]
  {
    Section4Tasks();
    Suffix5Tasks();
    assert Form[4..][1..] == Form[5..];
    assert VisitOrder[16..] == VisitOrder[16..18] + VisitOrder[18..];
  }

  lemma Suffix3Tasks()
    ensures FormTasks(Form[3..]) == VisitOrder[14..]
  {
    Section3Tasks();
    Suffix4Tasks();
    assert Form[3..][1..] == Form[4..];
    assert VisitOrder[14..] == VisitOrder[14..16] + VisitOrder[16..];
  }

  lemma Suffix2Tasks()
    ensures FormTasks(Form[2..]) == VisitOrder[10..]
  {
    Section2Tasks();
    Suffix3Tasks();
    assert Form[2..][1..] == Form[3..];
    assert VisitOrder[10..] == VisitOrder[10..14] + VisitOrder[14..];
  }

  lemma Suffix1Tasks()
    ensures FormTasks(Form[1..]) == VisitOrder[6..]
  {
    Section1Tasks();
    Suffix2Tasks();
    assert Form[1..][1..] == Form[2..];
    assert VisitOrder[6..] == VisitOrder[6..10] + VisitOrder[10..];
  }

  lemma Suffix0Tasks()
    ensures FormTasks(Form[0..]) == VisitOrder[0..]
  {
    Section0Tasks();
    Suffix1Tasks();
    assert Form[0..][1..] == Form[1..];
    assert VisitOrder[0..] == VisitOrder[0..6] + VisitOrder[6..];
  }

  /** Flattening the form gives the visiting order above. */
  lemma FormVisitOrder()
    ensures FormTasks(Form) == VisitOrder
  {
    Suffix0Tasks();
    assert Form[0..] == Form;
  }

  lemma VisitOrderDistinct()
    ensures |VisitOrder| == 26
    ensures Distinct(VisitOrder)
  {}

  /** The form lists 26 tasks, none twice. */
  lemma FormTasksDistinct()
    ensures |FormTasks(Form)| == 26
    ensures Distinct(FormTasks(Form))
  {
    FormVisitOrder();
    VisitOrderDistinct();
  }

  /** The collection loop of the entry form against one reference sheet:
      the tasks are visited in the order of the form (`FormVisitOrder`). */
  function Collect(norms: seq<Norm>, input: map<string, real>): Collected
  {
    CollectTasks(VisitOrder, NormTasks(norms), input)
  }
}

=== FILE: interference.dfy ===
/** Interference scores: for the verbal and non-verbal inhibition tasks, the
    incongruent condition minus the congruent one, for both the score and
    the time measure. A number that was not entered counts as 0. */
module Interference {
  import opened Seqs
  import opened Tables

  /** A derived task: its name and the two entered tasks it is computed from. */
  datatype Derivation = Derivation(name: string, incongruent: string, congruent: string)

  /** The four derived tasks, in the order the source lists them
      (streamlit_app.py:150-167). */
  const Derivations: seq<Derivation> := [
    Derivation("Inhibition verbale interférence score",
               "Inhibition verbale incongruent score", "Inhibition verbale congruent score"),
    Derivation("Inhibition non verbale interférence score",
               "Inhibition non verbale incongruent score", "Inhibition non verbale congruent score"),
    Derivation("Inhibition verbale interférence temps",
               "Inhibition verbale incongruent temps", "Inhibition verbale congruent temps"),
    Derivation("Inhibition non verbale interférence temps",
               "Inhibition non verbale incongruent temps", "Inhibition non verbale congruent temps")
  ]

  /** The number entered for `task`, or 0 when none was. */
  function ValueOrZero(entered: map<string, real>, task: string): real
  {
    if task in entered then entered[task] else 0.0
  }

  /** The four interference entries, computed from the numbers entered by
      task name (the dictionary `interferences`). */
  function Interferences(entered: map<string, real>): (r: seq<Entry>)
    ensures |r| == |Derivations|
    ensures forall i :: 0 <= i < |r| ==> r[i].task == Derivations[i].name
    // incongruent minus congruent, a missing operand read as 0
    ensures forall i :: 0 <= i < |r| ==>
              r[i].value + ValueOrZero(entered, Derivations[i].congruent)
              == ValueOrZero(entered, Derivations[i].incongruent)
  {
    seq(|Derivations|, i requires 0 <= i < |Derivations| =>
      var d := Derivations[i];
      Entry(d.name, ValueOrZero(entered, d.incongruent) - ValueOrZero(entered, d.congruent)))
  }

  /** The entries whose value is not zero (`filtered_interferences`). */
  function NonZero(entries: seq<Entry>): (r: seq<Entry>)
    ensures forall e :: e in r <==> e in entries && e.value != 0.0
    ensures IsSubseq(r, entries)
  {
    var r := Filter(entries, (e: Entry) => e.value != 0.0);
    assert forall e :: e in entries ==> exists i :: 0 <= i < |entries| && entries[i] == e;
    r
  }

  /** The score table extended with the non-zero interference entries
      (`user_scores.extend(...)`). */
  function WithInterferences(scores: seq<Entry>, entered: map<string, real>): (r: seq<Entry>)
    // the entered scores are kept unchanged, in front
    ensures |scores| <= |r| && r[..|scores|] == scores
    // an interference entry is appended exactly when its value is not zero
    ensures forall e :: e in r[|scores|..] <==> e in Interferences(entered) && e.value != 0.0
    ensures IsSubseq(r[|scores|..], Interferences(entered))
  {
    var extra := NonZero(Interferences(entered));
    assert (scores + extra)[|scores|..] == extra;
    scores + extra
  }

  /** An example: congruent 500 and incongruent 620 give 120. */
  lemma ExampleInterference()
    ensures Interferences(map["Inhibition verbale congruent score" := 500.0,
                              "Inhibition verbale incongruent score" := 620.0])[0]
            == Entry("Inhibition verbale interférence score", 120.0)
  {
    var entered := map["Inhibition verbale congruent score" := 500.0,
                       "Inhibition verbale incongruent score" := 620.0];
    assert ValueOrZero(entered, Derivations[0].incongruent) == 620.0;
    assert ValueOrZero(entered, Derivations[0].congruent) == 500.0;
  }

  /** With neither operand entered the interference is 0, so it is not
      added to the score table. */
  lemma BothMissingGivesZero(entered: map<string, real>, i: nat)
    requires i < |Derivations|
    requires Derivations[i].incongruent !in entered && Derivations[i].congruent !in entered
    ensures Interferences(entered)[i].value == 0.0
    ensures forall scores: seq<Entry> :: Interferences(entered)[i] !in WithInterferences(scores, entered)[|scores|..]
  {
  }

  /** With only the incongruent number entered, the interference is that
      number unchanged. */
  lemma CongruentMissing(entered: map<string, real>, i: nat)
    requires i < |Derivations|
    requires Derivations[i].incongruent in entered && Derivations[i].congruent !in entered
    ensures Interferences(entered)[i].value == entered[Derivations[i].incongruent]
  {
  }

  /** The names of the four derived tasks. */
  function DerivedNames(): seq<string>
  {
    MapSeq(Derivations, (d: Derivation) => d.name)
  }

  /** The derived names are four different names. */
  lemma DerivedNamesDistinct()
    ensures Distinct(DerivedNames())
    ensures forall entered: map<string, real> :: EntryTasks(Interferences(entered)) == DerivedNames()
  {
  }

  /** The name of each derivation is among the derived names. */
  lemma DerivedNameIn(i: nat)
    requires i < |Derivations|
    ensures Derivations[i].name in DerivedNames()
  {
    assert DerivedNames()[i] == Derivations[i].name;
  }
}

=== FILE: pipeline.dfy ===
/** The whole scoring of one child against the reference sheet of their age
    group: collection of the entry form, interference scores, merge and
    z-scores, and what the results page reads from the outcome. */
module Pipeline {
  import opened Wrappers
  import opened Seqs
  import opened Tables
  import opened Collection
  import opened Interference
  import opened Scoring
  import opened Categories

  /** What the entry page hands to the results page: the scored table
      (`filled_data`) and the tasks without norms (`missing_norms`). */
  datatype Report = Report(rows: seq<Scored>, missing: seq<string>)

  /** The numbers the entry form keeps by task name: those typed into a
      field of the form whose task the sheet has a row for. */
  function Entered(norms: seq<Norm>, input: map<string, real>): map<string, real>
  {
    map t | t in input.Keys && t in VisitOrder && t in NormTasks(norms) :: input[t]
  }

  /** The score table handed to the merge (`scores_df`): the collected
      scores followed by the non-zero interference scores. */
  function Scores(norms: seq<Norm>, input: map<string, real>): seq<Entry>
  {
    var c := Collect(norms, input);
    WithInterferences(c.scores, c.entered)
  }

  /** A number typed into the form for a form task. */
  ghost predicate FormEntry(e: Entry, input: map<string, real>)
  {
    e.task in VisitOrder && e.task in input && e.value == input[e.task]
  }

  /** A non-zero interference score computed from the numbers `entered`. */
  ghost predicate DerivedEntry(e: Entry, entered: map<string, real>)
  {
    exists i :: 0 <= i < |Derivations| && e.task == Derivations[i].name
                && e.value == Interferences(entered)[i].value && e.value != 0.0
  }

  /** The score a row was computed from. */
  function ScoreOf(x: Scored): Entry
    requires x.score.Some?
  {
    Entry(x.norm.task, x.score.value)
  }

  /** The scoring of the entry page, from the sheet and the typed numbers
      to the report. */
  function Evaluate(cdf: real -> real, norms: seq<Norm>, input: map<string, real>): (r: Report)
    // a form task is reported missing exactly when the sheet has no row for it
    ensures forall t :: t in r.missing <==> t in VisitOrder && t !in NormTasks(norms)
    ensures IsSubseq(r.missing, VisitOrder)
    // every row has a reference row, a usable z-score and a percentile
    ensures forall x :: x in r.rows ==> x.norm in norms && !x.z.NaN? && x.percentile.Some?
    // every score is a typed number or a non-zero interference score
    ensures forall x :: x in r.rows ==>
              x.score.Some? && (FormEntry(ScoreOf(x), input) || DerivedEntry(ScoreOf(x), Entered(norms, input)))
    // at most one row per task
    ensures Distinct(ScoredTasks(r.rows))
    // every typed number with a reference row and a usable z-score is scored
    ensures forall n :: n in norms && n.task in VisitOrder && n.task in input
                          && (n.sd != 0.0 || input[n.task] != n.mean)
                        ==> n.task in ScoredTasks(r.rows)
  {
    var c := Collect(norms, input);
    var scores := Scores(norms, input);
    var rows := ScoreTable(cdf, norms, scores);
    CollectedEntered(norms, input);
    forall x | x in rows
      ensures FormEntry(ScoreOf(x), input) || DerivedEntry(ScoreOf(x), Entered(norms, input))
    {
      ScoredRowOrigin(norms, input, ScoreOf(x));
    }
    forall n | n in norms && n.task in VisitOrder && n.task in input && (n.sd != 0.0 || input[n.task] != n.mean)
      ensures n.task in ScoredTasks(rows)
    {
      TypedScoreKept(norms, input, n);
    }
    Report(rows, c.missing)
  }

  /** A number typed for a form task that has a reference row reaches the
      score table. */
  lemma TypedScoreKept(norms: seq<Norm>, input: map<string, real>, n: Norm)
    requires n in norms && n.task in VisitOrder && n.task in input
    ensures Entry(n.task, input[n.task]) in Scores(norms, input)
  {
    var c := Collect(norms, input);
    var scores := Scores(norms, input);
    assert n.task in NormTasks(norms) by {
      var k :| 0 <= k < |norms| && norms[k] == n;
      assert NormTasks(norms)[k] == n.task;
    }
    var e := Entry(n.task, input[n.task]);
    assert e in c.scores;
    assert scores[..|c.scores|] == c.scores;
  }

  /** A non-zero interference score reaches the score table. */
  lemma DerivedScoreKept(norms: seq<Norm>, input: map<string, real>, i: nat)
    requires i < |Derivations| && Interferences(Entered(norms, input))[i].value != 0.0
    ensures Interferences(Entered(norms, input))[i] in Scores(norms, input)
  {
    var c := Collect(norms, input);
    var scores := Scores(norms, input);
    var e := Interferences(Entered(norms, input))[i];
    CollectedEntered(norms, input);
    assert e in scores[|c.scores|..];
  }

  /** A derived task with a reference row, a non-zero interference score and
      a usable z-score is scored. */
  lemma DerivedTaskScored(cdf: real -> real, norms: seq<Norm>, input: map<string, real>, i: nat, n: Norm)
    requires i < |Derivations| && n in norms && n.task == Derivations[i].name
    requires var v := Interferences(Entered(norms, input))[i].value;
             v != 0.0 && (n.sd != 0.0 || v != n.mean)
    ensures n.task in ScoredTasks(Evaluate(cdf, norms, input).rows)
  {
    DerivedScoreKept(norms, input, i);
  }

  /** The collection loop keeps exactly the numbers of `Entered`. */
  lemma CollectedEntered(norms: seq<Norm>, input: map<string, real>)
    ensures Collect(norms, input).entered == Entered(norms, input)
  {
  }

  /** A collected score is a number typed into the form. */
  lemma CollectedOrigin(norms: seq<Norm>, input: map<string, real>, e: Entry)
    requires e in Collect(norms, input).scores
    ensures FormEntry(e, input)
  {
    var c := Collect(norms, input);
    var i :| 0 <= i < |c.scores| && c.scores[i] == e;
  }

  /** An appended score is a non-zero interference score. */
  lemma AppendedOrigin(scores: seq<Entry>, entered: map<string, real>, e: Entry)
    requires e in WithInterferences(scores, entered)[|scores|..]
    ensures DerivedEntry(e, entered)
  {
    var extra := Interferences(entered);
    var i :| 0 <= i < |extra| && extra[i] == e;
  }

  /** Where an entry of the score table comes from. */
  lemma ScoredRowOrigin(norms: seq<Norm>, input: map<string, real>, e: Entry)
    requires e in Scores(norms, input)
    ensures FormEntry(e, input) || DerivedEntry(e, Collect(norms, input).entered)
  {
    var c := Collect(norms, input);
    var scores := Scores(norms, input);
    assert scores == c.scores + scores[|c.scores|..];
    if e in c.scores {
      CollectedOrigin(norms, input, e);
    } else {
      AppendedOrigin(c.scores, c.entered, e);
    }
  }

  /** No derived task is a task of the form. */
  lemma DerivedNotInForm()
    ensures forall t :: t in DerivedNames() ==> t !in VisitOrder
  {
  }

  /** The collected scores name form tasks, none twice and none derived. */
  lemma CollectedSide(norms: seq<Norm>, input: map<string, real>)
    ensures var c := Collect(norms, input);
            Distinct(EntryTasks(c.scores)) && forall t :: t in EntryTasks(c.scores) ==> t !in DerivedNames()
  {
    var c := Collect(norms, input);
    VisitOrderDistinct();
    CollectedDistinct(VisitOrder, NormTasks(norms), input);
    SubseqElements(EntryTasks(c.scores), VisitOrder);
    DerivedNotInForm();
  }

  /** The appended interference scores name derived tasks, none twice. */
  lemma DerivedSide(scores: seq<Entry>, entered: map<string, real>)
    ensures var extra := WithInterferences(scores, entered)[|scores|..];
            Distinct(EntryTasks(extra)) && forall t :: t in EntryTasks(extra) ==> t in DerivedNames()
  {
    var extra := WithInterferences(scores, entered)[|scores|..];
    DerivedNamesDistinct();
    SubseqMap(extra, Interferences(entered), EntryTask);
    SubseqDistinct(EntryTasks(extra), EntryTasks(Interferences(entered)));
    SubseqElements(EntryTasks(extra), DerivedNames());
  }

  /** The score table handed to the merge has at most one entry per task:
      the form lists no task twice, the four derived names differ, and no
      derived name is a form task. */
  lemma ScoresDistinct(norms: seq<Norm>, input: map<string, real>)
    ensures Distinct(EntryTasks(Scores(norms, input)))
  {
    var c := Collect(norms, input);
    var scores := Scores(norms, input);
    var extra := scores[|c.scores|..];
    CollectedSide(norms, input);
    DerivedSide(c.scores, c.entered);
    ConcatDistinct(EntryTasks(c.scores), EntryTasks(extra));
    assert scores == c.scores + extra;
    EntryTasksConcat(c.scores, extra);
  }

  /** The outcome of the entry page. When `scores_df` is built from an
      empty list its score column has no numeric type, so after the merge
      the z-score is computed cell by cell, and NaN / 0.0 raises
      ZeroDivisionError for a reference row with standard deviation 0.
      `None` is that failure; otherwise the report of `Evaluate`. */
  function Run(cdf: real -> real, norms: seq<Norm>, input: map<string, real>): (r: Option<Report>)
    // the pass fails exactly when no form task with a reference row was
    // filled in and some reference row has standard deviation 0
    ensures r.None? <==>
              (forall t :: t in input && t in VisitOrder ==> t !in NormTasks(norms))
              && exists k :: 0 <= k < |norms| && norms[k].sd == 0.0
    ensures r.Some? ==> r.value == Evaluate(cdf, norms, input)
  {
    NoScores(norms, input);
    if |Scores(norms, input)| == 0 && exists n :: n in norms && n.sd == 0.0 then None
    else Some(Evaluate(cdf, norms, input))
  }

  /** `scores_df` is empty exactly when no form task with a reference row
      was filled in. */
  lemma NoScores(norms: seq<Norm>, input: map<string, real>)
    ensures |Scores(norms, input)| == 0 <==>
              forall t :: t in input && t in VisitOrder ==> t !in NormTasks(norms)
  {
    if forall t :: t in input && t in VisitOrder ==> t !in NormTasks(norms) {
      NothingTyped(norms, input);
    } else {
      var t :| t in input && t in VisitOrder && t in NormTasks(norms);
      var k :| 0 <= k < |norms| && NormTasks(norms)[k] == t;
      TypedScoreKept(norms, input, norms[k]);
    }
  }

  /** With no form task with a reference row filled in, nothing is
      collected and every interference score is 0, so `scores_df` is empty. */
  lemma NothingTyped(norms: seq<Norm>, input: map<string, real>)
    requires forall t :: t in input && t in VisitOrder ==> t !in NormTasks(norms)
    ensures |Scores(norms, input)| == 0
  {
  }


  /** With no number entered, no interference score is appended. */
  lemma NoInterference(scores: seq<Entry>, entered: map<string, real>)
    requires entered == map[]
    ensures WithInterferences(scores, entered) == scores
  {
  }


  /** The rows of the report follow the order of the reference sheet. */
  lemma ReportOrder(cdf: real -> real, norms: seq<Norm>, input: map<string, real>)
    ensures IsSubseq(ScoredNorms(Evaluate(cdf, norms, input).rows), norms)
  {
    ScoreTableOrder(cdf, norms, Scores(norms, input));
  }

  /** When no standard deviation of the sheet is 0, the row of a task is
      its first row in the sheet. */
  lemma ReportFirstOccurrence(cdf: real -> real, norms: seq<Norm>, input: map<string, real>)
    requires forall k :: 0 <= k < |norms| ==> norms[k].sd != 0.0
    ensures forall x :: x in Evaluate(cdf, norms, input).rows ==>
              exists j :: 0 <= j < |norms| && norms[j] == x.norm
                          && forall k :: 0 <= k < j ==> norms[k].task != x.norm.task
  {
    ScoresDistinct(norms, input);
    ScoreTableFirstOccurrence(cdf, norms, Scores(norms, input));
  }

  /** `calculated_tasks`: the tasks of the rows with a z-score, in row
      order. */
  function CalculatedTasks(rows: seq<Scored>): (tasks: seq<string>)
    ensures forall t :: t in tasks <==> exists x :: x in rows && HasZ(x) && x.norm.task == t
  {
    var kept := Filter(rows, HasZ);
    SubseqElements(kept, rows);
    assert forall x :: x in rows && HasZ(x) ==> x in kept by {
      forall x | x in rows && HasZ(x) ensures x in kept {
        var i :| 0 <= i < |rows| && rows[i] == x;
      }
    }
    forall t | t in ScoredTasks(kept) ensures exists x :: x in kept && x.norm.task == t {
      var i :| 0 <= i < |ScoredTasks(kept)| && ScoredTasks(kept)[i] == t;
      assert kept[i] in kept;
    }
    forall x | x in kept ensures x.norm.task in ScoredTasks(kept) {
      TaskOfRow(kept, x);
    }
    ScoredTasks(kept)
  }

  /** Every row of the report has a z-score, so the chart picker offers
      every task of the report, in row order. */
  lemma ReportAllCalculated(cdf: real -> real, norms: seq<Norm>, input: map<string, real>)
    ensures var rows := Evaluate(cdf, norms, input).rows;
            CalculatedTasks(rows) == ScoredTasks(rows)
  {
    var rows := Evaluate(cdf, norms, input).rows;
    FilterAll(rows, HasZ);
  }

  /** Every task of the form and every derived task belongs to one of the
      four categories. */
  lemma KnownTasksMapped(t: string)
    requires t in VisitOrder || t in DerivedNames()
    ensures Mapped(Mapping, t)
  {
    if t in Mapping[0].tasks {
    } else if t in Mapping[1].tasks {
    } else if t in Mapping[2].tasks {
    } else {
      assert t in Mapping[3].tasks;
    }
  }

  /** A typed or derived score names a form task or a derived task. */
  lemma EntryTaskKnown(e: Entry, input: map<string, real>, entered: map<string, real>)
    requires FormEntry(e, input) || DerivedEntry(e, entered)
    ensures e.task in VisitOrder || e.task in DerivedNames()
  {
    if !FormEntry(e, input) {
      var i :| 0 <= i < |Derivations| && e.task == Derivations[i].name;
      DerivedNameIn(i);
    }
  }

  /** The task of every row of the report is a form task or a derived task. */
  lemma ReportTasksKnown(cdf: real -> real, norms: seq<Norm>, input: map<string, real>)
    ensures forall x :: x in Evaluate(cdf, norms, input).rows ==>
              x.norm.task in VisitOrder || x.norm.task in DerivedNames()
  {
    forall x | x in Evaluate(cdf, norms, input).rows
      ensures x.norm.task in VisitOrder || x.norm.task in DerivedNames()
    {
      EntryTaskKnown(ScoreOf(x), input, Entered(norms, input));
    }
  }

  /** The task of every row of the report is listed by some category. */
  lemma ReportTasksMapped(cdf: real -> real, norms: seq<Norm>, input: map<string, real>)
    ensures forall x :: x in Evaluate(cdf, norms, input).rows ==> Mapped(Mapping, x.norm.task)
  {
    ReportTasksKnown(cdf, norms, input);
    forall x | x in Evaluate(cdf, norms, input).rows ensures Mapped(Mapping, x.norm.task) {
      KnownTasksMapped(x.norm.task);
    }
  }

  /** A calculated task that some category lists has a category other than
      "Autre" and shows up in the picker group of that category. */
  lemma PlacedTask(calculated: seq<string>, t: string)
    requires t in calculated && Mapped(Mapping, t)
    ensures AssignCategory(t) != Other
    ensures exists g :: g in TasksByCategory(Mapping, calculated) && t in g.tasks && g.name == AssignCategory(t)
  {
    AssignCategoryExact(t);
    PickerPlacesTask(calculated, t);
  }

  /** No row of the report falls in "Autre", and the chart picker shows the
      task of every row in the group of its category. */
  lemma ReportCategories(cdf: real -> real, norms: seq<Norm>, input: map<string, real>)
    ensures var rows := Evaluate(cdf, norms, input).rows;
            forall x :: x in rows ==> AssignCategory(x.norm.task) != Other
    ensures var rows := Evaluate(cdf, norms, input).rows;
            forall x :: x in rows ==>
              exists g :: g in TasksByCategory(Mapping, CalculatedTasks(rows))
                          && x.norm.task in g.tasks && g.name == AssignCategory(x.norm.task)
  {
    var rows := Evaluate(cdf, norms, input).rows;
    var calculated := CalculatedTasks(rows);
    ReportTasksMapped(cdf, norms, input);
    forall x | x in rows
      ensures AssignCategory(x.norm.task) != Other
      ensures exists g :: g in TasksByCategory(Mapping, calculated)
                          && x.norm.task in g.tasks && g.name == AssignCategory(x.norm.task)
    {
      assert x.norm.task in calculated;
      PlacedTask(calculated, x.norm.task);
    }
  }
}

=== FILE: scoring.dfy ===
/** Normative scoring: the reference sheet is left-joined with the score
    table by task name, every joined row gets a z-score and a percentile,
    rows without a usable z-score are dropped, and a task that occurs more
    than once keeps its first row. */
module Scoring {
  import opened Wrappers
  import opened Seqs
  import opened Tables

  /** A z-score as a float computes it. Dividing by a standard deviation of
      0 gives an infinity when the score differs from the mean and NaN when
      it equals the mean; a missing score gives NaN. */
  datatype ZValue = Finite(z: real) | PosInf | NegInf | NaN

  /** A reference row joined with one score cell (`None` is NaN). */
  datatype Joined = Joined(norm: Norm, score: Option<real>)

  /** A joined row extended with the columns "Z-Score" and "Percentile (%)". */
  datatype Scored = Scored(norm: Norm, score: Option<real>, z: ZValue, percentile: Option<real>)

  /** `(score - mean) / sd` in floating point, for a standard deviation that
      is a number (the reference sheet has no empty cells). */
  function ZScore(score: Option<real>, mean: real, sd: real): (z: ZValue)
    ensures score.None? ==> z.NaN?
    // for a non-zero sd the z value is finite and recovers the score
    ensures score.Some? && sd != 0.0 ==> z.Finite? && score.value == mean + z.z * sd
    ensures score.Some? && sd > 0.0 ==> (z.z > 0.0 <==> score.value > mean) && (z.z == 0.0 <==> score.value == mean)
    // for a zero sd only a score equal to the mean gives NaN
    ensures score.Some? && sd == 0.0 ==>
              (z.PosInf? <==> score.value > mean) && (z.NegInf? <==> score.value < mean)
              && (z.NaN? <==> score.value == mean)
  {
    match score
    case None => NaN
    case Some(s) =>
      if sd != 0.0 then Finite((s - mean) / sd)
      else if s > mean then PosInf
      else if s < mean then NegInf
      else NaN
  }

  /** `norm.cdf(z) * 100`; `cdf` is the standard normal distribution
      function, kept abstract. Its limits at the infinities are 1 and 0. */
  function Percentile(cdf: real -> real, z: ZValue): (p: Option<real>)
    ensures p.None? <==> z.NaN?
    ensures z.PosInf? ==> p == Some(100.0)
    ensures z.NegInf? ==> p == Some(0.0)
  {
    match z
    case Finite(x) => Some(cdf(x) * 100.0)
    case PosInf => Some(100.0)
    case NegInf => Some(0.0)
    case NaN => None
  }

  /** Both computed columns for one joined row. */
  function Standardize(cdf: real -> real, row: Joined): Scored
  {
    var z := ZScore(row.score, row.norm.mean, row.norm.sd);
    Scored(row.norm, row.score, z, Percentile(cdf, z))
  }

  /** The joined rows for `norm`, one per score entered for its task, in
      score-table order. */
  function Matches(norm: Norm, scores: seq<Entry>): (rows: seq<Joined>)
    ensures forall x :: x in rows ==>
              x.norm == norm && x.score.Some? && Entry(norm.task, x.score.value) in scores
    ensures forall e :: e in scores && e.task == norm.task ==> Joined(norm, Some(e.value)) in rows
    ensures |rows| == 0 <==> norm.task !in EntryTasks(scores)
  {
    if |scores| == 0 then []
    else
      var rest := Matches(norm, scores[1..]);
      assert EntryTasks(scores) == [scores[0].task] + EntryTasks(scores[1..]);
      assert forall e :: e in scores ==> e == scores[0] || e in scores[1..];
      if scores[0].task == norm.task then [Joined(norm, Some(scores[0].value))] + rest else rest
  }

  /** A left join of one reference row: its matches, or the row alone with
      an empty score cell when nothing matches. */
  function JoinOne(norm: Norm, scores: seq<Entry>): (rows: seq<Joined>)
    ensures |rows| > 0
    ensures forall x :: x in rows ==> x.norm == norm
    ensures forall x :: x in rows && x.score.Some? ==> Entry(norm.task, x.score.value) in scores
    ensures forall x :: x in rows && x.score.None? ==> norm.task !in EntryTasks(scores)
    ensures norm.task !in EntryTasks(scores) ==> rows == [Joined(norm, None)]
    ensures forall e :: e in scores && e.task == norm.task ==> Joined(norm, Some(e.value)) in rows
  {
    var m := Matches(norm, scores);
    if |m| == 0 then [Joined(norm, None)] else m
  }

  /** `pd.merge(age_data, scores_df, on="Tâche", how="left")`: every reference
      row in sheet order, each followed by its matching scores. */
  function Merge(norms: seq<Norm>, scores: seq<Entry>): (m: seq<Joined>)
    ensures |m| >= |norms|
    ensures forall x :: x in m ==> x.norm in norms
    // a score cell holds an entered score for the row's task ...
    ensures forall x :: x in m && x.score.Some? ==> Entry(x.norm.task, x.score.value) in scores
    ensures forall n, e :: n in norms && e in scores && e.task == n.task ==> Joined(n, Some(e.value)) in m
    // ... and is empty only when no score was entered for that task, in
    // which case the reference row is still there (a left join)
    ensures forall x :: x in m && x.score.None? ==> x.norm.task !in EntryTasks(scores)
    ensures forall n :: n in norms && n.task !in EntryTasks(scores) ==> Joined(n, None) in m
  {
    if |norms| == 0 then []
    else
      var first := JoinOne(norms[0], scores);
      var rest := Merge(norms[1..], scores);
      assert forall n :: n in norms ==> n == norms[0] || n in norms[1..];
      first + rest
  }

  /** The columns "Z-Score" and "Percentile (%)" for every joined row. */
  function StandardizeAll(cdf: real -> real, rows: seq<Joined>): seq<Scored>
  {
    MapSeq(rows, (j: Joined) => Standardize(cdf, j))
  }

  function TaskOf(row: Scored): string { row.norm.task }
  function NormOf(row: Scored): Norm { row.norm }

  /** The column "Tâche" of scored rows. */
  function ScoredTasks(rows: seq<Scored>): seq<string>
  {
    MapSeq(rows, TaskOf)
  }

  /** The reference rows behind scored rows. */
  function ScoredNorms(rows: seq<Scored>): seq<Norm>
  {
    MapSeq(rows, NormOf)
  }

  /** The first row for `task`. */
  function FirstWith(rows: seq<Scored>, task: string): (r: Option<Scored>)
    ensures r.None? <==> task !in ScoredTasks(rows)
    ensures r.Some? ==>
              exists i :: 0 <= i < |rows| && rows[i] == r.value && r.value.norm.task == task
                          && forall k :: 0 <= k < i ==> rows[k].norm.task != task
  {
    if |rows| == 0 then None
    else
      assert ScoredTasks(rows) == [rows[0].norm.task] + ScoredTasks(rows[1..]);
      if rows[0].norm.task == task then Some(rows[0])
      else
        var r := FirstWith(rows[1..], task);
        FirstShift(rows, task, r);
        r
  }

  /** A first row for `task` in the tail of `rows` is a first row in `rows`
      when the head has another task. */
  lemma FirstShift(rows: seq<Scored>, task: string, r: Option<Scored>)
    requires |rows| > 0 && rows[0].norm.task != task
    requires r.Some? ==>
               exists i :: 0 <= i < |rows[1..]| && rows[1..][i] == r.value && r.value.norm.task == task
                           && forall k :: 0 <= k < i ==> rows[1..][k].norm.task != task
    ensures r.Some? ==>
              exists i :: 0 <= i < |rows| && rows[i] == r.value && r.value.norm.task == task
                          && forall k :: 0 <= k < i ==> rows[k].norm.task != task
  {
    if r.Some? {
      var i :| 0 <= i < |rows[1..]| && rows[1..][i] == r.value && r.value.norm.task == task
               && forall k :: 0 <= k < i ==> rows[1..][k].norm.task != task;
      assert rows[i + 1] == r.value;
      forall k | 0 <= k < i + 1 ensures rows[k].norm.task != task {
        if k > 0 {
          assert rows[k] == rows[1..][k - 1];
        }
      }
    }
  }

  /** `drop_duplicates(subset="Tâche")` started with the tasks of `seen`
      already taken. */
  function DedupFrom(rows: seq<Scored>, seen: set<string>): (r: seq<Scored>)
    ensures forall x :: x in r ==> x.norm.task !in seen && FirstWith(rows, x.norm.task) == Some(x)
    ensures Distinct(ScoredTasks(r))
    ensures forall x :: x in rows && x.norm.task !in seen ==> x.norm.task in ScoredTasks(r)
    ensures IsSubseq(r, rows)
    decreases |rows|
  {
    if |rows| == 0 then []
    else if rows[0].norm.task in seen then
      var r := DedupFrom(rows[1..], seen);
      SkipHead(rows, seen, r);
      r
    else
      var rest := DedupFrom(rows[1..], seen + {rows[0].norm.task});
      KeepHead(rows, seen, rest);
      [rows[0]] + rest
  }

  /** The step of `DedupFrom` that skips a row whose task is taken. */
  lemma SkipHead(rows: seq<Scored>, seen: set<string>, r: seq<Scored>)
    requires |rows| > 0 && rows[0].norm.task in seen
    requires forall x :: x in r ==> x.norm.task !in seen && FirstWith(rows[1..], x.norm.task) == Some(x)
    requires forall x :: x in rows[1..] && x.norm.task !in seen ==> x.norm.task in ScoredTasks(r)
    requires IsSubseq(r, rows[1..])
    ensures forall x :: x in r ==> x.norm.task !in seen && FirstWith(rows, x.norm.task) == Some(x)
    ensures forall x :: x in rows && x.norm.task !in seen ==> x.norm.task in ScoredTasks(r)
    ensures IsSubseq(r, rows)
  {
    assert forall x :: x in rows ==> x == rows[0] || x in rows[1..];
  }

  /** The step of `DedupFrom` that keeps a row whose task is new. */
  lemma KeepHead(rows: seq<Scored>, seen: set<string>, rest: seq<Scored>)
    requires |rows| > 0 && rows[0].norm.task !in seen
    requires forall x :: x in rest ==>
               x.norm.task !in seen + {rows[0].norm.task} && FirstWith(rows[1..], x.norm.task) == Some(x)
    requires Distinct(ScoredTasks(rest))
    requires forall x :: x in rows[1..] && x.norm.task !in seen + {rows[0].norm.task} ==>
               x.norm.task in ScoredTasks(rest)
    requires IsSubseq(rest, rows[1..])
    ensures forall x :: x in [rows[0]] + rest ==> x.norm.task !in seen && FirstWith(rows, x.norm.task) == Some(x)
    ensures Distinct(ScoredTasks([rows[0]] + rest))
    ensures forall x :: x in rows && x.norm.task !in seen ==> x.norm.task in ScoredTasks([rows[0]] + rest)
    ensures IsSubseq([rows[0]] + rest, rows)
  {
    var r := [rows[0]] + rest;
    assert r[1..] == rest;
    KeepHeadFirst(rows, seen, rest);
    ConsTasks(rows[0], rest);
    NotTaken(rest, rows[0].norm.task);
    KeepHeadDistinct(rows[0].norm.task, ScoredTasks(rest));
    KeepHeadCover(rows, seen, rest);
  }

  /** Every row `KeepHead` keeps is the first row of its task. */
  lemma KeepHeadFirst(rows: seq<Scored>, seen: set<string>, rest: seq<Scored>)
    requires |rows| > 0 && rows[0].norm.task !in seen
    requires forall x :: x in rest ==>
               x.norm.task !in seen + {rows[0].norm.task} && FirstWith(rows[1..], x.norm.task) == Some(x)
    ensures forall x :: x in [rows[0]] + rest ==> x.norm.task !in seen && FirstWith(rows, x.norm.task) == Some(x)
  {
    forall x | x in [rows[0]] + rest ensures x.norm.task !in seen && FirstWith(rows, x.norm.task) == Some(x) {
      if x != rows[0] {
        assert x in rest;
        FirstSkip(rows, x.norm.task);
      } else {
        FirstHead(rows);
      }
    }
  }

  /** Every task not yet taken keeps a row in `KeepHead`. */
  lemma KeepHeadCover(rows: seq<Scored>, seen: set<string>, rest: seq<Scored>)
    requires |rows| > 0
    requires forall x :: x in rows[1..] && x.norm.task !in seen + {rows[0].norm.task} ==>
               x.norm.task in ScoredTasks(rest)
    ensures forall x :: x in rows && x.norm.task !in seen ==> x.norm.task in ScoredTasks([rows[0]] + rest)
  {
    ConsTasks(rows[0], rest);
    forall x | x in rows && x.norm.task !in seen ensures x.norm.task in ScoredTasks([rows[0]] + rest) {
      if x.norm.task != rows[0].norm.task {
        assert x in rows[1..];
      }
    }
  }

  /** A task no row carries is not in the task column. */
  lemma NotTaken(rows: seq<Scored>, task: string)
    requires forall x :: x in rows ==> x.norm.task != task
    ensures task !in ScoredTasks(rows)
  {
    forall i | 0 <= i < |rows| ensures ScoredTasks(rows)[i] != task {
      assert rows[i] in rows;
    }
  }

  lemma FirstWithIn(rows: seq<Scored>, task: string)
    ensures FirstWith(rows, task).Some? ==> FirstWith(rows, task).value in rows
  {
  }

  lemma FirstHead(rows: seq<Scored>)
    requires |rows| > 0
    ensures FirstWith(rows, rows[0].norm.task) == Some(rows[0])
  {
  }

  lemma FirstSkip(rows: seq<Scored>, task: string)
    requires |rows| > 0 && rows[0].norm.task != task
    ensures FirstWith(rows, task) == FirstWith(rows[1..], task)
  {
  }

  lemma ConsTasks(head: Scored, rest: seq<Scored>)
    ensures ScoredTasks([head] + rest) == [head.norm.task] + ScoredTasks(rest)
  {
  }

  lemma KeepHeadDistinct(t: string, tasks: seq<string>)
    requires Distinct(tasks) && t !in tasks
    ensures Distinct([t] + tasks)
  {
    var s := [t] + tasks;
    forall i, j | 0 <= i < j < |s| ensures s[i] != s[j] {
      assert s[j] == tasks[j - 1];
      if i > 0 {
        assert s[i] == tasks[i - 1];
      }
    }
  }

  /** `drop_duplicates(subset="Tâche")`: the first row of every task, in order. */
  function DropDuplicates(rows: seq<Scored>): (r: seq<Scored>)
    ensures Distinct(ScoredTasks(r))
    ensures forall t :: t in ScoredTasks(r) <==> t in ScoredTasks(rows)
    ensures forall x :: x in r ==> x in rows && FirstWith(rows, x.norm.task) == Some(x)
    ensures IsSubseq(r, rows)
  {
    var r := DedupFrom(rows, {});
    SubseqElements(r, rows);
    forall t | t in ScoredTasks(rows) ensures t in ScoredTasks(r) {
      var i :| 0 <= i < |rows| && ScoredTasks(rows)[i] == t;
      assert rows[i] in rows;
    }
    forall t | t in ScoredTasks(r) ensures t in ScoredTasks(rows) {
      var i :| 0 <= i < |r| && ScoredTasks(r)[i] == t;
      assert r[i] in rows;
      TaskOfRow(rows, r[i]);
    }
    r
  }

  /** A row's task is in the task column. */
  lemma TaskOfRow(rows: seq<Scored>, x: Scored)
    requires x in rows
    ensures x.norm.task in ScoredTasks(rows)
  {
    var i :| 0 <= i < |rows| && rows[i] == x;
    assert ScoredTasks(rows)[i] == x.norm.task;
  }

  predicate HasZ(row: Scored) { !row.z.NaN? }
  predicate HasScore(row: Scored) { row.score.Some? }

  /** The joined rows with their z-score and percentile, after `dropna` on
      the z-score and the filter on the score column, before duplicates
      are dropped. */
  function Filled(cdf: real -> real, norms: seq<Norm>, scores: seq<Entry>): (rows: seq<Scored>)
    ensures forall x :: x in rows ==>
              x.score.Some? && !x.z.NaN? && x.norm in norms && Entry(x.norm.task, x.score.value) in scores
              && x.z == ZScore(x.score, x.norm.mean, x.norm.sd) && x.percentile == Percentile(cdf, x.z)
  {
    var joined := Merge(norms, scores);
    var all := StandardizeAll(cdf, joined);
    var withZ := Filter(all, HasZ);
    var filled := Filter(withZ, HasScore);
    SubseqElements(withZ, all);
    SubseqElements(filled, withZ);
    forall x | x in all
      ensures x.norm in norms && x.z == ZScore(x.score, x.norm.mean, x.norm.sd) && x.percentile == Percentile(cdf, x.z)
      ensures x.score.Some? ==> Entry(x.norm.task, x.score.value) in scores
    {
      var j :| 0 <= j < |all| && all[j] == x;
      assert joined[j] in joined;
    }
    filled
  }

  /** A reference row with an entered score and a usable z-score reaches
      duplicate removal. */
  lemma FilledComplete(cdf: real -> real, norms: seq<Norm>, scores: seq<Entry>, n: Norm, e: Entry)
    requires n in norms && e in scores && e.task == n.task && (n.sd != 0.0 || e.value != n.mean)
    ensures n.task in ScoredTasks(Filled(cdf, norms, scores))
  {
    var joined := Merge(norms, scores);
    var all := StandardizeAll(cdf, joined);
    var withZ := Filter(all, HasZ);
    var jr := Joined(n, Some(e.value));
    assert jr in joined;
    var j :| 0 <= j < |joined| && joined[j] == jr;
    var x := all[j];
    assert HasZ(x) && HasScore(x);
    var k :| 0 <= k < |withZ| && withZ[k] == x;
    assert x in Filled(cdf, norms, scores);
    TaskOfRow(Filled(cdf, norms, scores), x);
  }

  /** The scored table of one child against one reference sheet
      (`filled_data`): merge, z-score, `dropna` on the z-score, percentile,
      keep rows with a score, drop repeated tasks. */
  function ScoreTable(cdf: real -> real, norms: seq<Norm>, scores: seq<Entry>): (r: seq<Scored>)
    // every row has a score, a usable z-score and a percentile
    ensures forall x :: x in r ==> x.score.Some? && !x.z.NaN? && x.percentile.Some?
    // every row joins a reference row with a score entered for its task
    ensures forall x :: x in r ==> x.norm in norms && Entry(x.norm.task, x.score.value) in scores
    // the same formula for every task: no z-score is negated
    ensures forall x :: x in r && x.norm.sd != 0.0 ==>
              x.z == Finite((x.score.value - x.norm.mean) / x.norm.sd)
    ensures forall x :: x in r && x.norm.sd == 0.0 ==> x.score.value != x.norm.mean
    ensures forall x :: x in r && x.z.Finite? ==> x.percentile == Some(cdf(x.z.z) * 100.0)
    // the z-score and percentile columns are those of the row's score and reference row
    ensures forall x :: x in r ==>
              x.z == ZScore(x.score, x.norm.mean, x.norm.sd) && x.percentile == Percentile(cdf, x.z)
    // at most one row per task
    ensures Distinct(ScoredTasks(r))
    // a task is scored when its reference row has a score and a usable z-score
    ensures forall n, e :: n in norms && e in scores && e.task == n.task && (n.sd != 0.0 || e.value != n.mean)
              ==> n.task in ScoredTasks(r)
  {
    var filled := Filled(cdf, norms, scores);
    forall n, e | n in norms && e in scores && e.task == n.task && (n.sd != 0.0 || e.value != n.mean)
      ensures n.task in ScoredTasks(filled)
    {
      FilledComplete(cdf, norms, scores, n, e);
    }
    var r := DropDuplicates(filled);
    forall x | x in r {
      FilledRow(cdf, norms, scores, x);
    }
    r
  }

  /** What every row that reaches duplicate removal satisfies. */
  lemma FilledRow(cdf: real -> real, norms: seq<Norm>, scores: seq<Entry>, x: Scored)
    requires x in Filled(cdf, norms, scores)
    ensures x.score.Some? && !x.z.NaN? && x.percentile.Some?
    ensures x.norm in norms && Entry(x.norm.task, x.score.value) in scores
    ensures x.z == ZScore(x.score, x.norm.mean, x.norm.sd) && x.percentile == Percentile(cdf, x.z)
    ensures x.norm.sd != 0.0 ==> x.z == Finite((x.score.value - x.norm.mean) / x.norm.sd)
    ensures x.norm.sd == 0.0 ==> x.score.value != x.norm.mean
    ensures x.z.Finite? ==> x.percentile == Some(cdf(x.z.z) * 100.0)
  {
    RowFacts(cdf, x);
  }

  /** The computed columns of a row, read back as formulas. */
  lemma RowFacts(cdf: real -> real, x: Scored)
    requires x.score.Some?
    requires x.z == ZScore(x.score, x.norm.mean, x.norm.sd) && x.percentile == Percentile(cdf, x.z)
    ensures x.norm.sd != 0.0 ==> x.z == Finite((x.score.value - x.norm.mean) / x.norm.sd)
    ensures x.z.Finite? ==> x.percentile == Some(cdf(x.z.z) * 100.0)
  {
  }

  /** The row filter on the score column after the `dropna` on the z-score
      removes nothing: a missing score already made the z-score NaN. */
  lemma FilledFilterRedundant(cdf: real -> real, norms: seq<Norm>, scores: seq<Entry>)
    ensures var withZ := Filter(StandardizeAll(cdf, Merge(norms, scores)), HasZ);
            Filter(withZ, HasScore) == withZ
  {
    var withZ := Filter(StandardizeAll(cdf, Merge(norms, scores)), HasZ);
    assert forall x :: x in withZ ==> exists i :: 0 <= i < |withZ| && withZ[i] == x;
    FilterAll(withZ, HasScore);
  }

  /** With at most one score per task, the left join pairs every reference
      row with the score of its task: one joined row per reference row. */
  lemma {:induction false} MergeDistinct(norms: seq<Norm>, scores: seq<Entry>)
    requires Distinct(EntryTasks(scores))
    ensures |Merge(norms, scores)| == |norms|
    ensures forall i :: 0 <= i < |norms| ==>
              Merge(norms, scores)[i] == Joined(norms[i], Lookup(scores, norms[i].task))
    decreases |norms|
  {
    if |norms| > 0 {
      JoinOneDistinct(norms[0], scores);
      MergeDistinct(norms[1..], scores);
      var m := Merge(norms, scores);
      assert m == [Joined(norms[0], Lookup(scores, norms[0].task))] + Merge(norms[1..], scores);
      forall i | 0 < i < |norms|
        ensures m[i] == Joined(norms[i], Lookup(scores, norms[i].task))
      {
        assert norms[i] == norms[1..][i - 1];
      }
    }
  }

  lemma {:induction false} JoinOneDistinct(norm: Norm, scores: seq<Entry>)
    requires Distinct(EntryTasks(scores))
    ensures JoinOne(norm, scores) == [Joined(norm, Lookup(scores, norm.task))]
    decreases |scores|
  {
    if |scores| > 0 {
      var tasks := EntryTasks(scores);
      assert EntryTasks(scores[1..]) == tasks[1..];
      assert Distinct(tasks[1..]);
      if scores[0].task == norm.task {
        assert norm.task !in tasks[1..] by {
          forall j | 0 <= j < |tasks[1..]| ensures tasks[1..][j] != norm.task {
            assert tasks[0] != tasks[j + 1];
          }
        }
        assert Matches(norm, scores[1..]) == [];
      } else {
        JoinOneDistinct(norm, scores[1..]);
      }
    }
  }

  /** A filter that keeps every row for `task` does not change the first
      row for `task`. */
  lemma {:induction false} FirstWithFilter(rows: seq<Scored>, p: Scored -> bool, task: string)
    requires forall x :: x in rows && x.norm.task == task ==> p(x)
    ensures FirstWith(Filter(rows, p), task) == FirstWith(rows, task)
    decreases |rows|
  {
    if |rows| > 0 {
      assert forall x :: x in rows[1..] ==> x in rows;
      FirstWithFilter(rows[1..], p, task);
      if p(rows[0]) {
        assert Filter(rows, p) == [rows[0]] + Filter(rows[1..], p);
        assert ([rows[0]] + Filter(rows[1..], p))[1..] == Filter(rows[1..], p);
      }
    }
  }

  /** The scored rows follow the order of the reference sheet, whatever the
      score table holds. */
  lemma ScoreTableOrder(cdf: real -> real, norms: seq<Norm>, scores: seq<Entry>)
    ensures IsSubseq(ScoredNorms(ScoreTable(cdf, norms, scores)), norms)
  {
    var all := StandardizeAll(cdf, Merge(norms, scores));
    var withZ := Filter(all, HasZ);
    var filled := Filter(withZ, HasScore);
    assert filled == Filled(cdf, norms, scores);
    var r := ScoreTable(cdf, norms, scores);
    SubseqTrans(filled, withZ, all);
    SubseqTrans(r, filled, all);
    RowsFollowSheet(cdf, norms, scores, r);
  }

  /** Rows selected from the merged table with at most one row per task
      follow the reference sheet: the merge is one block per reference row,
      and such a selection takes at most one row from each block. */
  lemma {:induction false} RowsFollowSheet(cdf: real -> real, norms: seq<Norm>, scores: seq<Entry>, r: seq<Scored>)
    requires IsSubseq(r, StandardizeAll(cdf, Merge(norms, scores)))
    requires Distinct(ScoredTasks(r))
    ensures IsSubseq(ScoredNorms(r), norms)
    decreases |norms|
  {
    if |norms| == 0 {
      assert |r| == 0;
    } else {
      var block := StandardizeAll(cdf, JoinOne(norms[0], scores));
      var rest := StandardizeAll(cdf, Merge(norms[1..], scores));
      StandardizeConcat(cdf, JoinOne(norms[0], scores), Merge(norms[1..], scores));
      BlockNorm(cdf, norms[0], scores);
      var k := HeadStep(norms[0], block, rest, r);
      RowsFollowSheet(cdf, norms[1..], scores, r[k..]);
      assert ScoredNorms(r)[k..] == ScoredNorms(r[k..]);
      SubseqHeadOrSkip(ScoredNorms(r), norms, k);
    }
  }

  /** A selection with at most one row per task, from a block of rows that
      all carry reference row `n` followed by more rows, takes at most one
      row from the block. */
  lemma HeadStep(n: Norm, block: seq<Scored>, rest: seq<Scored>, r: seq<Scored>) returns (k: nat)
    requires forall x :: x in block ==> x.norm == n
    requires IsSubseq(r, block + rest)
    requires Distinct(ScoredTasks(r))
    ensures k <= |r| && k <= 1 && (k == 1 ==> ScoredNorms(r)[0] == n)
    ensures IsSubseq(r[k..], rest) && Distinct(ScoredTasks(r[k..]))
  {
    k := SubseqSplit(r, block, rest);
    SubseqElements(r[..k], block);
    forall i | 0 <= i < k ensures r[i].norm == n {
      assert r[i] in r[..k];
    }
    assert |r| >= 2 ==> ScoredTasks(r)[0] != ScoredTasks(r)[1];
    assert |r| >= 1 ==> ScoredNorms(r)[0] == r[0].norm;
    DistinctSuffix(ScoredTasks(r), k);
    assert ScoredTasks(r[k..]) == ScoredTasks(r)[k..];
  }

  /** Standardizing two stacked tables stacks the standardized tables. */
  lemma StandardizeConcat(cdf: real -> real, a: seq<Joined>, b: seq<Joined>)
    ensures StandardizeAll(cdf, a + b) == StandardizeAll(cdf, a) + StandardizeAll(cdf, b)
  {
    var l := StandardizeAll(cdf, a + b);
    var r := StandardizeAll(cdf, a) + StandardizeAll(cdf, b);
    forall i | 0 <= i < |l| ensures l[i] == r[i] {
      if i < |a| {
        assert (a + b)[i] == a[i];
      } else {
        assert (a + b)[i] == b[i - |a|];
      }
    }
  }

  /** Every row of the block of a reference row carries that reference row. */
  lemma BlockNorm(cdf: real -> real, n: Norm, scores: seq<Entry>)
    ensures forall x :: x in StandardizeAll(cdf, JoinOne(n, scores)) ==> x.norm == n
  {
    var joined := JoinOne(n, scores);
    forall x | x in StandardizeAll(cdf, joined) ensures x.norm == n {
      var j :| 0 <= j < |joined| && StandardizeAll(cdf, joined)[j] == x;
      assert joined[j] in joined;
    }
  }

  /** With at most one score per task and no zero standard deviation, the
      row kept for a task is the first reference row of that task. */
  lemma ScoreTableFirstOccurrence(cdf: real -> real, norms: seq<Norm>, scores: seq<Entry>)
    requires Distinct(EntryTasks(scores))
    requires forall k :: 0 <= k < |norms| ==> norms[k].sd != 0.0
    ensures forall x :: x in ScoreTable(cdf, norms, scores) ==>
              exists j :: 0 <= j < |norms| && norms[j] == x.norm
                          && forall k :: 0 <= k < j ==> norms[k].task != x.norm.task
  {
    forall x | x in ScoreTable(cdf, norms, scores)
      ensures exists j :: 0 <= j < |norms| && norms[j] == x.norm
                          && forall k :: 0 <= k < j ==> norms[k].task != x.norm.task
    {
      assert FirstWith(Filled(cdf, norms, scores), x.norm.task) == Some(x);
      KeptIsFirst(cdf, norms, scores, x);
    }
  }

  lemma KeptIsFirst(cdf: real -> real, norms: seq<Norm>, scores: seq<Entry>, x: Scored)
    requires Distinct(EntryTasks(scores))
    requires forall k :: 0 <= k < |norms| ==> norms[k].sd != 0.0
    requires FirstWith(Filled(cdf, norms, scores), x.norm.task) == Some(x)
    ensures exists j :: 0 <= j < |norms| && norms[j] == x.norm
                        && forall k :: 0 <= k < j ==> norms[k].task != x.norm.task
  {
    var all := StandardizeAll(cdf, Merge(norms, scores));
    var withZ := Filter(all, HasZ);
    var filled := Filter(withZ, HasScore);
    assert filled == Filled(cdf, norms, scores);
    var t := x.norm.task;
    AllRows(cdf, norms, scores);
    FirstWithIn(filled, t);
    SubseqElements(filled, withZ);
    SubseqElements(withZ, all);
    assert x in all;
    forall y | y in all && y.norm.task == t ensures HasZ(y) && HasScore(y) {
      SameTaskSameScore(cdf, norms, scores, x, y);
    }
    FirstWithFilter(all, HasZ, t);
    FirstWithFilter(withZ, HasScore, t);
    assert FirstWith(all, t) == Some(x);
    FirstInJoin(cdf, norms, scores, x);
  }

  /** The first row of a task in the standardized join comes from the first
      reference row of that task. */
  lemma FirstInJoin(cdf: real -> real, norms: seq<Norm>, scores: seq<Entry>, x: Scored)
    requires Distinct(EntryTasks(scores))
    requires FirstWith(StandardizeAll(cdf, Merge(norms, scores)), x.norm.task) == Some(x)
    ensures exists j :: 0 <= j < |norms| && norms[j] == x.norm
                        && forall k :: 0 <= k < j ==> norms[k].task != x.norm.task
  {
    var all := StandardizeAll(cdf, Merge(norms, scores));
    var t := x.norm.task;
    AllRows(cdf, norms, scores);
    var i :| 0 <= i < |all| && all[i] == x && forall k :: 0 <= k < i ==> all[k].norm.task != t;
    forall k | 0 <= k < i ensures norms[k].task != t {
      assert all[k].norm == norms[k];
    }
    assert all[i].norm == norms[i];
  }

  /** With at most one score per task, the standardized join has one row per
      reference row, scored with the score of its task. */
  lemma AllRows(cdf: real -> real, norms: seq<Norm>, scores: seq<Entry>)
    requires Distinct(EntryTasks(scores))
    ensures var all := StandardizeAll(cdf, Merge(norms, scores));
            |all| == |norms|
            && forall k :: 0 <= k < |norms| ==>
                 all[k] == Standardize(cdf, Joined(norms[k], Lookup(scores, norms[k].task)))
  {
    MergeDistinct(norms, scores);
  }

  /** Two rows of the standardized join with the same task carry the same
      score; with a non-zero sd, a scored row has a usable z-score. */
  lemma SameTaskSameScore(cdf: real -> real, norms: seq<Norm>, scores: seq<Entry>, x: Scored, y: Scored)
    requires Distinct(EntryTasks(scores))
    requires forall k :: 0 <= k < |norms| ==> norms[k].sd != 0.0
    requires x in StandardizeAll(cdf, Merge(norms, scores)) && x.score.Some?
    requires y in StandardizeAll(cdf, Merge(norms, scores)) && y.norm.task == x.norm.task
    ensures HasZ(y) && HasScore(y)
  {
    var all := StandardizeAll(cdf, Merge(norms, scores));
    AllRows(cdf, norms, scores);
    var i :| 0 <= i < |all| && all[i] == x;
    var k :| 0 <= k < |all| && all[k] == y;
    assert y.score == Lookup(scores, norms[k].task) == x.score;
    assert norms[k].sd != 0.0;
  }

  /** A score equal to the mean has z-score 0, whatever the (non-zero)
      standard deviation; with the distribution function at 0 equal to one
      half, its percentile is 50. */
  lemma ScoreAtMean(cdf: real -> real, mean: real, sd: real)
    requires sd != 0.0
    ensures ZScore(Some(mean), mean, sd) == Finite(0.0)
    ensures cdf(0.0) == 0.5 ==> Percentile(cdf, ZScore(Some(mean), mean, sd)) == Some(50.0)
  {
  }

  /** An example: mean 50, standard deviation 10, score 65 gives a
      z-score of 1.5. */
  lemma ExampleZScore()
    ensures ZScore(Some(65.0), 50.0, 10.0) == Finite(1.5)
  {
  }

  /** A task whose standard deviation is 0 is still scored when the score
      differs from the mean: its z-score is infinite and its percentile is
      0 or 100. */
  lemma ZeroSdScored(cdf: real -> real, task: string, mean: real, score: real)
    requires score != mean
    ensures var r := ScoreTable(cdf, [Norm(task, mean, 0.0, [])], [Entry(task, score)]);
            |r| == 1 && r[0].z == (if score > mean then PosInf else NegInf)
            && r[0].percentile == Some(if score > mean then 100.0 else 0.0)
  {
    var n := Norm(task, mean, 0.0, []);
    var r := ScoreTable(cdf, [n], [Entry(task, score)]);
    ScoreTableOrder(cdf, [n], [Entry(task, score)]);
    assert task in ScoredTasks(r);
    assert |r| >= 1;
    SubseqLength(ScoredNorms(r), [n]);
    assert r[0] in r;
  }
}

=== FILE: seqs.dfy ===
/** Order-preserving selection over sequences: the shape every pandas row
    filter (`dropna`, boolean masks, `drop_duplicates`) has when a data frame
    is read as a sequence of rows. */
module Seqs {

  /** `a` is obtained from `b` by deleting elements: every element of `a`
      comes from `b`, in the same relative order. */
  ghost predicate IsSubseq<T>(a: seq<T>, b: seq<T>)
    decreases |b|
  {
    if |a| == 0 then true
    else if |b| == 0 then false
    else (a[0] == b[0] && IsSubseq(a[1..], b[1..])) || IsSubseq(a, b[1..])
  }

  /** No element occurs twice. */
  ghost predicate Distinct<T>(s: seq<T>)
  {
    forall i, j :: 0 <= i < j < |s| ==> s[i] != s[j]
  }

  /** The elements of `s` that satisfy `p`, in their original order. */
  function Filter<T>(s: seq<T>, p: T -> bool): (r: seq<T>)
    ensures forall i :: 0 <= i < |r| ==> r[i] in s && p(r[i])
    ensures forall i :: 0 <= i < |s| && p(s[i]) ==> s[i] in r
    ensures IsSubseq(r, s)
    ensures |r| <= |s|
  {
    if |s| == 0 then []
    else
      var rest := Filter(s[1..], p);
      if p(s[0]) then
        assert ([s[0]] + rest)[1..] == rest;
        [s[0]] + rest
      else rest
  }

  /** Filtering keeps a first element that satisfies the predicate. */
  lemma FilterKeep<T>(s: seq<T>, p: T -> bool)
    requires |s| > 0 && p(s[0])
    ensures Filter(s, p) == [s[0]] + Filter(s[1..], p)
  {
  }

  /** Filtering drops a first element that fails the predicate. */
  lemma FilterSkip<T>(s: seq<T>, p: T -> bool)
    requires |s| > 0 && !p(s[0])
    ensures Filter(s, p) == Filter(s[1..], p)
  {
  }

  /** `f` applied to every element of `s`. */
  function MapSeq<T, U>(s: seq<T>, f: T -> U): (r: seq<U>)
    ensures |r| == |s|
    ensures forall i :: 0 <= i < |s| ==> r[i] == f(s[i])
  {
    seq(|s|, i requires 0 <= i < |s| => f(s[i]))
  }

  /** Deleting elements keeps only elements that were there. */
  lemma {:induction false} SubseqElements<T>(a: seq<T>, b: seq<T>)
    requires IsSubseq(a, b)
    ensures forall x :: x in a ==> x in b
    decreases |b|
  {
    if |a| > 0 {
      if a[0] == b[0] && IsSubseq(a[1..], b[1..]) {
        SubseqElements(a[1..], b[1..]);
        forall x | x in a ensures x in b {
          if x != a[0] {
            assert x in a[1..];
          }
        }
      } else {
        SubseqElements(a, b[1..]);
      }
    }
  }

  lemma {:induction false} SubseqTrans<T>(a: seq<T>, b: seq<T>, c: seq<T>)
    requires IsSubseq(a, b) && IsSubseq(b, c)
    ensures IsSubseq(a, c)
    decreases |c|
  {
    if |a| > 0 {
      assert |b| > 0 && |c| > 0;
      if IsSubseq(b, c[1..]) {
        SubseqTrans(a, b, c[1..]);
      } else {
        assert b[0] == c[0] && IsSubseq(b[1..], c[1..]);
        if a[0] == b[0] && IsSubseq(a[1..], b[1..]) {
          SubseqTrans(a[1..], b[1..], c[1..]);
        } else {
          SubseqTrans(a, b[1..], c[1..]);
        }
      }
    }
  }

  /** Applying the same function to both sides keeps the relation. */
  lemma {:induction false} SubseqMap<T, U>(a: seq<T>, b: seq<T>, f: T -> U)
    requires IsSubseq(a, b)
    ensures IsSubseq(MapSeq(a, f), MapSeq(b, f))
    decreases |b|
  {
    if |a| > 0 {
      assert MapSeq(b, f)[1..] == MapSeq(b[1..], f);
      if a[0] == b[0] && IsSubseq(a[1..], b[1..]) {
        SubseqMap(a[1..], b[1..], f);
        assert MapSeq(a, f)[1..] == MapSeq(a[1..], f);
      } else {
        SubseqMap(a, b[1..], f);
      }
    }
  }

  /** A selection from two stacked sequences is a selection from the first
      followed by a selection from the second. */
  lemma {:induction false} SubseqSplit<T>(a: seq<T>, b: seq<T>, c: seq<T>) returns (k: nat)
    requires IsSubseq(a, b + c)
    ensures k <= |a| && IsSubseq(a[..k], b) && IsSubseq(a[k..], c)
    decreases |b| + |c|
  {
    if |a| == 0 {
      k := 0;
    } else if |b| == 0 {
      assert b + c == c;
      k := 0;
    } else {
      assert (b + c)[1..] == b[1..] + c;
      if a[0] == b[0] && IsSubseq(a[1..], b[1..] + c) {
        var k' := SubseqSplit(a[1..], b[1..], c);
        k := k' + 1;
        assert a[..k][1..] == a[1..][..k'];
        assert a[k..] == a[1..][k'..];
      } else {
        k := SubseqSplit(a, b[1..], c);
      }
    }
  }

  /** A selection from `b` that starts with `b`'s head (k = 1) or skips it
      (k = 0). */
  lemma SubseqHeadOrSkip<T>(a: seq<T>, b: seq<T>, k: nat)
    requires |b| > 0 && k <= 1 && k <= |a|
    requires IsSubseq(a[k..], b[1..])
    requires k == 1 ==> a[0] == b[0]
    ensures IsSubseq(a, b)
  {
    if k == 0 {
      assert a[k..] == a;
    }
  }

  /** A suffix of a repetition-free sequence is repetition-free. */
  lemma DistinctSuffix<T>(s: seq<T>, k: nat)
    requires Distinct(s) && k <= |s|
    ensures Distinct(s[k..])
  {
    forall i, j | 0 <= i < j < |s[k..]| ensures s[k..][i] != s[k..][j] {
      assert s[k..][i] == s[k + i] && s[k..][j] == s[k + j];
    }
  }

  /** A selection from a repetition-free sequence is repetition-free. */
  lemma {:induction false} SubseqDistinct<T>(a: seq<T>, b: seq<T>)
    requires IsSubseq(a, b) && Distinct(b)
    ensures Distinct(a)
    decreases |b|
  {
    if |a| > 0 {
      assert Distinct(b[1..]);
      if a[0] == b[0] && IsSubseq(a[1..], b[1..]) {
        SubseqDistinct(a[1..], b[1..]);
        SubseqElements(a[1..], b[1..]);
        forall i, j | 0 <= i < j < |a| ensures a[i] != a[j] {
          if i == 0 {
            assert a[j] == a[1..][j - 1];
            assert a[j] in b[1..];
          } else {
            assert a[i] == a[1..][i - 1] && a[j] == a[1..][j - 1];
          }
        }
      } else {
        SubseqDistinct(a, b[1..]);
      }
    }
  }

  /** Filtering with a predicate every element satisfies changes nothing. */
  lemma {:induction false} FilterAll<T>(s: seq<T>, p: T -> bool)
    requires forall x :: x in s ==> p(x)
    ensures Filter(s, p) == s
    decreases |s|
  {
    if |s| > 0 {
      assert forall x :: x in s[1..] ==> x in s;
      FilterAll(s[1..], p);
      assert [s[0]] + s[1..] == s;
    }
  }

  lemma {:induction false} SubseqLength<T>(a: seq<T>, b: seq<T>)
    requires IsSubseq(a, b)
    ensures |a| <= |b|
    decreases |b|
  {
    if |a| > 0 {
      if a[0] == b[0] && IsSubseq(a[1..], b[1..]) {
        SubseqLength(a[1..], b[1..]);
      } else {
        SubseqLength(a, b[1..]);
      }
    }
  }

  /** Two repetition-free sequences with no common element concatenate to a
      repetition-free sequence. */
  lemma ConcatDistinct<T>(a: seq<T>, b: seq<T>)
    requires Distinct(a) && Distinct(b)
    requires forall x :: x in a ==> x !in b
    ensures Distinct(a + b)
  {
    var s := a + b;
    forall i, j | 0 <= i < j < |s| ensures s[i] != s[j] {
      if j < |a| {
        assert s[i] == a[i] && s[j] == a[j];
      } else if i >= |a| {
        assert s[i] == b[i - |a|] && s[j] == b[j - |a|];
      } else {
        assert s[i] == a[i] && s[j] == b[j - |a|];
        assert s[i] in a && s[j] in b;
      }
    }
  }
}

=== FILE: tables.dfy ===
/** The two tables the scoring works on: an age group's reference sheet
    (norms) and the list of scores entered for one child. */
module Tables {
  import opened Wrappers
  import opened Seqs

  /** One reference row after column selection: the task name (column
      "Tâche"), the mean ("Moyenne"), the standard deviation ("Ecart-type"),
      and the eight descriptive columns Minimum, 5th and 10th percentile, Q1,
      median, Q3, 90th percentile and Maximum, carried through for display. */
  datatype Norm = Norm(task: string, mean: real, sd: real, stats: seq<real>)

  /** A reference row as read from the sheet, before rows with an empty
      cell are dropped; `None` is an empty cell. */
  datatype RawNorm = RawNorm(task: Option<string>, mean: Option<real>, sd: Option<real>,
                             stats: seq<Option<real>>)

  /** One row of the child's score table: columns "Tâche" and "Score Enfant". */
  datatype Entry = Entry(task: string, value: real)

  /** No cell of the selected columns is empty. */
  predicate Complete(raw: RawNorm)
  {
    && raw.task.Some? && raw.mean.Some? && raw.sd.Some?
    && forall i :: 0 <= i < |raw.stats| ==> raw.stats[i].Some?
  }

  function ToNorm(raw: RawNorm): Norm
    requires Complete(raw)
  {
    Norm(raw.task.value, raw.mean.value, raw.sd.value,
         seq(|raw.stats|, i requires 0 <= i < |raw.stats| && raw.stats[i].Some? => raw.stats[i].value))
  }

  /** The reference sheet after `dropna`: the complete rows, converted, in
      sheet order. */
  function CleanNorms(raws: seq<RawNorm>): (norms: seq<Norm>)
    ensures |norms| <= |raws|
    ensures forall i :: 0 <= i < |raws| && Complete(raws[i]) ==> ToNorm(raws[i]) in norms
    ensures forall i :: 0 <= i < |norms| ==>
              exists j :: 0 <= j < |raws| && Complete(raws[j]) && norms[i] == ToNorm(raws[j])
    ensures (forall i :: 0 <= i < |raws| ==> Complete(raws[i])) ==> |norms| == |raws|
    // the i-th clean row is the i-th complete row of the sheet
    ensures |norms| == |Filter(raws, Complete)|
    ensures forall i :: 0 <= i < |norms| ==> norms[i] == ToNorm(Filter(raws, Complete)[i])
  {
    var norms := (
      if |raws| == 0 then []
      else
        var rest := CleanNorms(raws[1..]);
        if Complete(raws[0]) then
          FilterKeep(raws, Complete);
          CleanKeep(raws, rest);
          [ToNorm(raws[0])] + rest
        else
          FilterSkip(raws, Complete);
          rest);
    CleanFacts(raws, norms);
    norms
  }

  /** Row by row correspondence with the complete rows gives the membership
      facts of `CleanNorms`. */
  lemma CleanFacts(raws: seq<RawNorm>, norms: seq<Norm>)
    requires |norms| == |Filter(raws, Complete)|
    requires forall i :: 0 <= i < |norms| ==> norms[i] == ToNorm(Filter(raws, Complete)[i])
    ensures |norms| <= |raws|
    ensures forall i :: 0 <= i < |raws| && Complete(raws[i]) ==> ToNorm(raws[i]) in norms
    ensures forall i :: 0 <= i < |norms| ==>
              exists j :: 0 <= j < |raws| && Complete(raws[j]) && norms[i] == ToNorm(raws[j])
    ensures (forall i :: 0 <= i < |raws| ==> Complete(raws[i])) ==> |norms| == |raws|
  {
    var kept := Filter(raws, Complete);
    forall i | 0 <= i < |raws| && Complete(raws[i]) ensures ToNorm(raws[i]) in norms {
      var k :| 0 <= k < |kept| && kept[k] == raws[i];
      assert norms[k] == ToNorm(raws[i]);
    }
    forall i | 0 <= i < |norms|
      ensures exists j :: 0 <= j < |raws| && Complete(raws[j]) && norms[i] == ToNorm(raws[j])
    {
      var j :| 0 <= j < |raws| && raws[j] == kept[i];
      assert Complete(raws[j]) && norms[i] == ToNorm(raws[j]);
    }
    if forall i :: 0 <= i < |raws| ==> Complete(raws[i]) {
      assert forall x :: x in raws ==> Complete(x);
      FilterAll(raws, Complete);
    }
  }

  /** The step of `CleanNorms` that keeps a complete first row. */
  lemma CleanKeep(raws: seq<RawNorm>, rest: seq<Norm>)
    requires |raws| > 0 && Complete(raws[0])
    requires |rest| == |Filter(raws[1..], Complete)|
    requires forall i :: 0 <= i < |rest| ==> rest[i] == ToNorm(Filter(raws[1..], Complete)[i])
    ensures forall i :: 0 <= i < 1 + |rest| ==>
              ([ToNorm(raws[0])] + rest)[i] == ToNorm(([raws[0]] + Filter(raws[1..], Complete))[i])
  {
    var tail := Filter(raws[1..], Complete);
    forall i | 0 < i < 1 + |rest| ensures ([ToNorm(raws[0])] + rest)[i] == ToNorm(([raws[0]] + tail)[i]) {
      assert ([raws[0]] + tail)[i] == tail[i - 1];
    }
  }

  /** The column "Tâche" of the reference sheet, in sheet order. */
  function NormTasks(norms: seq<Norm>): seq<string>
  {
    MapSeq(norms, NormTask)
  }

  function NormTask(n: Norm): string { n.task }
  function EntryTask(e: Entry): string { e.task }

  /** The column "Tâche" of a score table, in row order. */
  function EntryTasks(entries: seq<Entry>): seq<string>
  {
    MapSeq(entries, EntryTask)
  }

  /** The first score entered for `task`, if any. */
  function Lookup(entries: seq<Entry>, task: string): (r: Option<real>)
    ensures r.None? <==> task !in EntryTasks(entries)
    ensures r.Some? ==> Entry(task, r.value) in entries
  {
    if |entries| == 0 then None
    else if entries[0].task == task then Some(entries[0].value)
    else
      assert EntryTasks(entries) == [entries[0].task] + EntryTasks(entries[1..]);
      Lookup(entries[1..], task)
  }

  /** In a score table without repeated task names, each entry is the one
      `Lookup` finds for its task. */
  lemma {:induction false} LookupDistinct(entries: seq<Entry>, i: nat)
    requires Distinct(EntryTasks(entries))
    requires i < |entries|
    ensures Lookup(entries, entries[i].task) == Some(entries[i].value)
    decreases |entries|
  {
    if i > 0 {
      assert EntryTasks(entries)[0] != EntryTasks(entries)[i];
      assert EntryTasks(entries[1..]) == EntryTasks(entries)[1..];
      LookupDistinct(entries[1..], i - 1);
    }
  }

  /** The task column of two stacked score tables is the two columns stacked. */
  lemma EntryTasksConcat(a: seq<Entry>, b: seq<Entry>)
    ensures EntryTasks(a + b) == EntryTasks(a) + EntryTasks(b)
  {
    var l := EntryTasks(a + b);
    var r := EntryTasks(a) + EntryTasks(b);
    assert |l| == |r|;
    forall i | 0 <= i < |l| ensures l[i] == r[i] {
      if i < |a| {
        assert (a + b)[i] == a[i];
      } else {
        assert (a + b)[i] == b[i - |a|];
      }
    }
  }
}

=== FILE: wrappers.dfy ===
/** Optional values: a blank text field, a dictionary key that is absent,
    or a pandas cell that holds NaN. */
module Wrappers {

  datatype Option<+T> = None | Some(value: T)
}
